=== FILE: README.md ===
# RouteScan AI — usage accounting, extraction post-processing and session state, in Dafny

RouteScan AI is a browser app. Users log in, upload a screenshot of a
delivery app, and a vision service extracts the delivery stops from it. A
free account has 10 scans per calendar month. An administrator lists the
accounts and can switch their plan or block them. User accounts are rows of
a remote `users` table.

This project models the small amount of logic underneath the user interface
and proves properties of it:

- **`AuthService`** (`auth_service.dfy`, lemmas in `auth_facts.dfy`) covers
  usage accounting and the row rules. It contains:
  - the scan quota check and the `YYYY-MM` month key (`month_key.dfy`);
  - the defaulting of raw rows into `User`, and the monthly counter reset
    applied when users are listed;
  - login, administrator login and sign-up;
  - the single-field updates `togglePro`, `toggleBlock` and
    `incrementScanCount`.

  The table is a map from id to row. What a query returned is an input of
  the operation that consumes it:
  - a `Lookup`: one row, no row, or an error;
  - a `Listing`: the rows, or an error;
  - an `Insert`: a new id, or an error message.

  `LookupCredentials` and `LookupEmail` state what a `.single()` query
  returns for a given table. Lemmas use them to connect the operations to
  the table. Those lemmas show:
  - sign-up and every update keep the table well formed: ids match keys,
    e-mails are unique and lower-cased, plans are `free`/`pro`;
  - a duplicate e-mail is refused;
  - a blocked account cannot log in.
- **`GeminiService`** (`gemini_service.dfy`, string helpers in
  `strings.dfy`) covers post-processing of the extraction. It contains:
  - the data-URL validator and splitter;
  - the per-stop mapping: JavaScript `trim`, removing non-digits from the
    CEP (postal code), the `NNNNN-NNN` hyphen, and the constant confidence;
  - the error paths of `extractAddressesFromImage`.
- **`App`** (`app.dfy`, lemmas in `app_facts.dfy`) is the screen and session
  state machine:
  - each handler and each navigation button is a pure function of the state;
  - `Step` applies one event that the current screen offers;
  - `Run` applies a sequence of events.

  Invariants proved: `DASHBOARD` implies a signed-in user, and
  `ADMIN_PANEL` implies an administrator. Every view change is one of the
  eight edges in `IsViewEdge`, and the password-recovery screen is never
  reached. Handlers do not write to the table themselves. They return the
  writes as `Command`s, and `AuthService.Apply` runs them.

  These facts hold because each handler runs to completion before the next
  event. In the program a handler awaits the store and the vision service,
  so completions can interleave with clicks. Two consequences fall outside
  these guarantees:
  - A login still in flight when "Criar nova conta" is clicked later sets
    `DASHBOARD` while the sign-up screen is shown (App.tsx:54, 383).
  - A scan that completes after logout sets the results and the user again
    (App.tsx:131, 137).

Behaviour of the code that the model keeps, and that a reader may not
expect:

- **Each scan replaces the results list** (App.tsx:131). Nothing merges
  scans or removes duplicate stops. `AppFacts.SuccessfulScan` states the
  replacement.
- **Login returns the stored counter as is** (services/authService.ts:117-129).
  Only the listing applies the monthly reset
  (services/authService.ts:64-72). `AuthFacts.LoginKeepsStaleCounter`
  shows the effect: a free account that used up its quota in an earlier
  month is still refused after logging in. Listing the users would have
  reset its counter.
- **A CEP can have more than 8 digits** (services/geminiService.ts:78). The
  hyphen goes after the fifth digit whenever there are at least 8 digits.
  The remaining digits are kept, so `"123456789"` becomes `"12345-6789"`.

## Model

| member | source | states |
|---|---|---|
| MonthKey.CurrentMonthKey | services/authService.ts:25-28 | the key is the year as `String` renders it, `-`, then the table numeral `01`..`12` of the month, so the month part always lies in that table |
| MonthKey.MonthKeyRoundTrip | services/authService.ts:25-28 | the key can be read back into exactly the year and month it was built from |
| MonthKey.MonthKeyInjective | services/authService.ts:25-28 | two different months never share a key, so the reset test on keys is a test on months |
| Decimal.IntToStringRoundTrip | services/authService.ts:27 | the year's decimal rendering is read back exactly, minus sign included |
| AuthService.IsConfigured | services/authService.ts:11-17 | the store is configured only when both settings are present; a key in the vision service's `AIza` format is refused; any other pair of present settings is accepted |
| AuthService.ToUser | services/authService.ts:49-62 | each column that is missing gets its default: plan `free`, uploads 0, both flags false, month = current key, creation = now; a column that is present is kept |
| AuthService.ToUserOfFullRow | services/authService.ts:49-62 | a user written out as a complete row reads back unchanged, whatever the clock says |
| AuthService.Reconcile | services/authService.ts:64-72 | a user's counter is zeroed exactly when the stored month differs from the current one; the month always ends up current; no other field changes |
| AuthService.ReconcileIdempotent | services/authService.ts:64-72 | resetting twice is resetting once; a user already in the current month is returned unchanged |
| AuthService.ListUsers | services/authService.ts:47-75 | one user per row in the same order, each with the current month and a counter that is the stored count if the months match and 0 otherwise; the other fields are as defaulting gives them |
| AuthService.GetUsers | services/authService.ts:33-76 | an unconfigured store or a failed query lists nobody; otherwise exactly the per-row mapping of `ListUsers` (defaulting, then the monthly reset) over the listed rows, in order, each with the current month key |
| AuthService.CanUserScan | services/authService.ts:139-142 | a `pro` user may always scan; any other user may scan if and only if the counter is below 10 |
| AuthService.Single | services/authService.ts:107-114 | `.single()` yields a row exactly when one row matches, no row when none match, and an error when several match |
| AuthService.LookupCredentials | services/authService.ts:107-112 | a returned row is in the table and holds the lower-cased e-mail and the exact password; no row comes back exactly when no row holds both; a row exactly when one row holds them; an error exactly when at least two rows hold them |
| AuthService.LookupEmail | services/authService.ts:82 | a returned row is in the table and holds the lower-cased e-mail; no row comes back exactly when no row holds it; a row exactly when one row holds it; an error exactly when at least two rows hold it |
| AuthService.Login | services/authService.ts:103-130 | returns a user if and only if the query found an unblocked row; throws "Acesso bloqueado." if and only if the row is blocked; otherwise returns null; the user's counter is returned as stored |
| AuthService.AdminLogin | services/authService.ts:132-137 | accepts one fixed login/password pair and nothing else, and returns that identity |
| AuthService.NewUserRow | services/authService.ts:85-95 | the new row has the lower-cased e-mail, plan `free`, 0 uploads, the current month, and is neither blocked nor confirmed |
| AuthService.Signup | services/authService.ts:78-101 | when the e-mail was found it fails with "E-mail já cadastrado." and inserts nothing; a row is inserted if and only if the store is configured, the e-mail was not found and the insert succeeded; a failed insert reports its message after the fixed prefix; a success reports the fixed registration message |
| AuthService.SignupStore | services/authService.ts:97 | the inserted row is added under its fresh id; every row already stored is kept unchanged; without an insert the table is unchanged |
| AuthService.IncrementScanCount | services/authService.ts:144-151 | the upload count becomes the stored count (or 0) plus one; no other column changes |
| AuthService.TogglePro | services/authService.ts:153-167 | a `pro` row becomes `free` with both plan dates null; any other row becomes `pro` from now to thirty days on; no other column changes |
| AuthService.ToggleBlock | services/authService.ts:170-177 | the row's blocked state is negated (null counts as not blocked); no other column changes |
| AuthService.Apply | services/authService.ts:144-177 | an update changes only its target row; an unconfigured store or a missing row is left as is |
| AuthFacts.EmailLookupFinds | services/authService.ts:82 | when e-mails are unique, the duplicate query finds a row stored under the lower-cased e-mail |
| AuthFacts.DuplicateSignupRejected | services/authService.ts:82-83 | in a table with unique e-mails (which `AuthFacts.SignupKeepsWellFormed` shows sign-up keeps), signing up with an e-mail already registered, in any ASCII letter case, fails and leaves the table unchanged (the property needs unique e-mails: with duplicates the query errors and sign-up goes on to insert) |
| AuthFacts.SignupKeepsWellFormed | services/authService.ts:78-101 | sign-up keeps the table well formed: ids match keys, e-mails are unique and lower-cased, plans are known |
| AuthFacts.ApplyKeepsWellFormed | services/authService.ts:144-177 | the plan, block and counter updates keep the table well formed |
| AuthFacts.ApplyAllKeepsWellFormed | services/authService.ts:144-177 | any sequence of updates keeps the table well formed |
| AuthFacts.LoginFindsStoredRow | services/authService.ts:107-116 | a successful login found an unblocked row with the lower-cased e-mail and the exact password, and returns that row as a user |
| AuthFacts.BlockedLoginThrows | services/authService.ts:107-115 | in a table with unique e-mails, the correct credentials of a blocked account throw the blocked error (the property needs unique e-mails: with duplicates the query errors and login returns null) |
| AuthFacts.LoginKeepsStaleCounter | services/authService.ts:117-129 | login applies no monthly reset: a free account that used its quota in an earlier month is still refused, although the listing reset would allow it |
| AuthFacts.RefreshAfterIncrement | App.tsx:133-137 | in a well-formed table, logging in with a user's credentials after that user's increment returns the user with the stored counter plus one |
| AuthFacts.TogglePlanTwice | services/authService.ts:153-167 | toggling a non-`pro` row twice leaves it `free` with null plan dates and every other column unchanged; a `free` row with no plan dates is restored exactly |
| AuthFacts.ToggleBlockTwice | services/authService.ts:170-177 | toggling the block twice restores the blocked state, and restores the row if and only if the flag was stored (a null flag comes back as an explicit false) |
| AuthFacts.IncrementOnce | services/authService.ts:144-151 | one increment adds exactly one to that user's stored counter and leaves every other row unchanged |
| AuthFacts.ListingIsReconciled | services/authService.ts:61-72 | resetting a listed user again changes nothing |
| AuthFacts.NewUserMayScan | services/authService.ts:85-95 | a freshly signed-up row, read in its month, is a `free` user with no scans who may scan |
| Strings.Trim | services/geminiService.ts:76-79 | `trim` keeps one contiguous slice of the input and drops only white space before and after it, and the result neither starts nor ends with white space |
| Strings.TrimIdempotent | services/geminiService.ts:76-79 | trimming twice is trimming once |
| Strings.Digits | services/geminiService.ts:78 | what `replace(/\D/g, '')` leaves is digits only and no longer than the input |
| Strings.DigitsCounts | services/geminiService.ts:78 | every digit of the input is kept as often as it occurs, and no other character is kept |
| Strings.DigitsAppend | services/geminiService.ts:78 | removing non-digits distributes over concatenation |
| Strings.DigitsOfDigits | services/geminiService.ts:78 | removing non-digits leaves a digit string unchanged |
| Strings.Lower | services/authService.ts:110 | `toLowerCase` on ASCII: same length, each capital letter replaced by its small letter, every other character kept in place |
| Strings.LowerIdempotent | services/authService.ts:82 | lower-casing twice is lower-casing once, and leaves no upper-case ASCII letter |
| GeminiService.ParseDataUrl | services/geminiService.ts:10-16 | an accepted input has the form `data:<mime>;base64,<payload>`: the MIME type is non-empty and has no `;`, the payload is non-empty with no line terminator, and both are exactly the captured parts |
| GeminiService.ParseDataUrlComplete | services/geminiService.ts:10-16 | every input of that form is accepted, with exactly its MIME type and payload captured |
| GeminiService.ParseDataUrlSound | services/geminiService.ts:10-13 | an input with no such reading is refused |
| GeminiService.NormalizeCep | services/geminiService.ts:78 | the output has exactly the input's digits, in order; with at least 8 digits, one `-` is inserted after the fifth digit; otherwise the output is the bare digit string |
| GeminiService.NormalizeCepIdempotent | services/geminiService.ts:78 | normalising a normalised CEP changes nothing |
| GeminiService.NormalizeCepShape | services/geminiService.ts:78 | a CEP with exactly 8 digits comes out as `NNNNN-NNN` |
| GeminiService.NormalizeCepBareDigits | services/geminiService.ts:78 | "12345678" becomes "12345-678" |
| GeminiService.NormalizeCepFormatted | services/geminiService.ts:78 | "12345-678" is left as it is |
| GeminiService.ProcessStop | services/geminiService.ts:73-81 | a processed stop has trimmed number, address and city, a normalised CEP, the given id, and confidence 1.0 |
| GeminiService.ProcessStops | services/geminiService.ts:73-81 | the list is produced if and only if every raw stop can be processed; it has one stop per raw stop, and the i-th is the i-th raw stop processed with id `mkId(i)` |
| GeminiService.ExtractAddresses | services/geminiService.ts:5-88 | a malformed data URL fails with the invalid-format error before any call; a failed call, parse or mapping fails with the single generic error; a missing or non-array `stops` field gives no stops; otherwise the i-th raw stop, processed, is the i-th result |
| GeminiService.ProcessedStopIsNormal | services/geminiService.ts:76-80 | processing the fields of a processed stop again changes nothing |
| GeminiService.ExtractedStopsAreNormal | services/geminiService.ts:73-81 | every extracted stop is already trimmed and normalised |
| App.HandleLogin | App.tsx:42-62 | without a configured store it only sets the disconnection error; a returned user opens the dashboard; null or a thrown error keeps the view and the form and sets the error |
| App.HandleSignup | App.tsx:64-81 | success clears the form and returns to the login screen without signing in; failure sets the returned message (or the generic one if `signup` threw) and stays |
| App.DoLogout | App.tsx:84-91 | logging out shows the login screen with no user, no administrator, no results, no error and an empty form |
| App.HandleAdminLogin | App.tsx:94-111 | the fixed pair, and only it, opens the admin panel with an administrator and clears the form; any other pair sets the error and stays |
| App.AfterRead | App.tsx:126-145 | a failed extraction writes nothing and leaves the results unchanged; a successful one replaces the results with the extracted stops and issues exactly one increment for the user; a refresh that returns a user replaces the signed-in user, and any other refresh keeps it; a throwing refresh or a failed extraction shows its message (or the fallback); a null refresh keeps the error as it was (cleared when the upload started); the form and the user list never change |
| App.ScanError | App.tsx:139 | the message shown for a failed scan is never empty: the thrown message when it has one, otherwise the fallback |
| App.HandleFileUpload | App.tsx:114-151 | without a file or a user nothing happens; a user out of quota gets the quota error, nothing is read and nothing is written; a failed read sets the read error; at most one write is issued |
| App.LimitReached | App.tsx:156 | the limit flag is raised only for `free` users, and for them exactly when `canUserScan` refuses |
| App.Offers | App.tsx:363-426 | the password-recovery screen offers nothing; the create-account and admin-console buttons and the login form only on the login screen; the name field and the sign-up form only on the sign-up screen; the admin form only on the admin login screen; the e-mail and password fields exist only on the three form screens; back only on sign-up and admin login; logout only on the two signed-in screens; the file picker only on the dashboard; listing and the toggles only on the admin panel |
| App.Step | App.tsx:363-426 | an event the current screen does not offer changes nothing; every step keeps the session invariant; a view change is always one of the eight edges |
| App.Run | App.tsx:16-25 | any sequence of events keeps the session invariant and never enters the password-recovery screen |
| AppFacts.NavigationEdges | App.tsx:383-410 | the navigation buttons change only the view, and only LOGIN→SIGNUP, LOGIN→ADMIN_LOGIN, SIGNUP→LOGIN and ADMIN_LOGIN→LOGIN |
| AppFacts.ViewEdgesAreTaken | App.tsx:42-111 | each of the eight edges is taken by some event from some state that satisfies the invariant |
| AppFacts.ReachableStates | App.tsx:16-21 | from the initial state, every run keeps the invariant and never shows the password-recovery screen |
| AppFacts.LogoutEndsSession | App.tsx:84-91 | logging out of the dashboard or the admin panel ends both sessions |
| AppFacts.BlockedAccountStaysOut | App.tsx:50-60 | a blocked account's login keeps the login screen, the form and the signed-in user, and shows the blocked message |
| AppFacts.QuotaStopsScan | App.tsx:118-121 | a user out of quota gets the quota error; nothing is written and the results stay unchanged |
| AppFacts.SuccessfulScan | App.tsx:127-137 | a successful scan replaces the results and adds exactly one to the user's stored counter; no other row changes |
| AppFacts.ScanRefreshSeesIncrement | App.tsx:127-137 | after a successful scan by a user whose row holds the user's credentials, the refresh against the updated table leaves that user signed in with the stored counter plus one |
| AppFacts.FailedScan | App.tsx:138-139 | a failed extraction shows its message and changes neither the results nor the table |
| AppFacts.LimitFlagMatchesQuota | App.tsx:156 | for plans `free` and `pro`, the scan button is disabled if and only if `canUserScan` refuses |
| AppFacts.ListedFlagsAgree | App.tsx:156 | for every user listed from rows with known plans, the button flag agrees with `canUserScan` |

## Left out

- The Supabase client and the network. The model leaves out query
  builders, and read/write failures other than those given as inputs.
- Failed reads in the updates. A failed read in `togglePro`, `toggleBlock`
  or `incrementScanCount` behaves like a missing row and is not modelled
  separately.
- Failed writes in the updates. Their failure is not checked by the source
  and is not modelled.
- Races between the non-atomic read-then-write updates. Each handler is
  applied atomically, and interleaving of asynchronous completions is not
  modelled.
- The un-awaited reset write in `getUsers` (services/authService.ts:66-69).
  It has no result. Only the corrected user that is returned is modelled.
- Listing order. Rows come in the order the store lists them, newest
  first. The sort itself is done by the store.
- The vision service call, its schema and prompt, JSON parsing and
  `response.text`. Their outcome is the `ApiReply` input.
- `String(...)` on non-string `stopNumber`/`cep` values. These are taken
  as their string renderings.
- The `...stop` spread of extra fields. It has no effect on the modelled
  fields.
- Stop ids. They come from `Date.now()` and `Math.random()` and are the
  `mkId` input.
- ISO timestamp conversion and the thirty-day calendar arithmetic. These
  timestamps are opaque instants, and the end of the pro period is an input.
- `getFullYear`/`getMonth`. They are inputs of `MonthKey.CurrentMonthKey`.
- Reading the environment variables. Only the resulting guard
  `AuthService.IsConfigured` is modelled. Each store operation calls
  `getSupabase()` itself (services/authService.ts:34, 79, 104, 145, 154,
  171). `App.tsx:27` calls `isConfigured()` again on every render. All of
  these evaluations see the same two module constants
  (services/authService.ts:6-7), so they all give the same answer. The
  model therefore passes that answer as one fixed `configured` parameter
  to the store operations and to `App.Step`. The settings themselves are
  not part of the model.
- The browser's form validation. The form fields are `required`, and the
  login and sign-up e-mail fields have `type="email"` (App.tsx:376-377,
  397-399, 416-417), so the browser submits no form with an empty field or
  a malformed e-mail. `App.Offers` offers `SubmitLogin`, `SubmitSignup`
  and `SubmitAdminLogin` whatever the form holds. This over-approximation
  keeps every proved property sound.
- Rendering, the loading flag, `alert`, `FileReader`, the spreadsheet
  export, `window.open`, the days-left arithmetic and the progress bar.
  These are presentation or browser plumbing.
- The `useEffect` refresh timing. A listing arrives as the
  `AdminUsersLoaded` event. An admin toggle button only issues its write,
  and the refresh that follows is a separate `AdminUsersLoaded` event.
- `AuthState` in types.ts. The component does not use it.
- The deployed administrator login and password. They are replaced by
  placeholder constants, because any fixed pair behaves the same.
- AuthService.SignupStore: requires the inserted id to be absent from the
  table, because the store assigns the primary key of a new row. An id
  collision in the store is not modelled.
- Strings.Lower: folds only ASCII letters, whereas `toLowerCase` folds all
  of Unicode. Non-ASCII e-mail addresses are outside the model.
- Strings.IsJsSpace: lists the ECMAScript white space and line terminator
  code points explicitly. Other Unicode space separators that a future
  Unicode version may add are outside the model.

=== FILE: app.dfy ===
/** The session and view state machine of the application (App.tsx).

    The component's state hooks are one immutable `State`; every handler and
    navigation button is a pure function of the state and of what the
    services it awaits returned. Writes to the user store are not performed
    here: a handler lists them as `Command`s, which `AuthService.Apply` runs. */
module App {
  import opened Types
  import AuthService
  import GeminiService

  const MSG_DISCONNECTED: string := "Sistema desconectado do banco de dados."
  const MSG_BAD_CREDENTIALS: string := "Credenciais inválidas."
  const MSG_SIGNUP_ERROR: string := "Erro no cadastro persistente."
  const MSG_BAD_ADMIN: string := "Credenciais administrativas inválidas."
  const MSG_QUOTA: string := "Limite de scans mensais atingido no plano Free."
  const MSG_READ_FAILED: string := "Erro ao ler o arquivo."
  const MSG_SCAN_FALLBACK: string := "Falha ao processar imagem."

  /** `formData`. */
  datatype Form = Form(nome: string, email: string, password: string)

  const EMPTY_FORM: Form := Form("", "", "")

  /** The component's state: `view`, `user`, `admin`, `error`, `results`,
      `allUsers` and `formData`. */
  datatype State = State(
    view: ViewState,
    user: Option<User>,
    admin: Option<Admin>,
    error: string,
    results: seq<DeliveryStop>,
    allUsers: seq<User>,
    form: Form)

  const INITIAL: State := State(LOGIN, None, None, "", [], [], EMPTY_FORM)

  /** The session invariant: the dashboard is only shown with a user, and the
      admin panel only with an administrator. */
  predicate Inv(s: State) {
    (s.view == DASHBOARD ==> s.user.Some?) && (s.view == ADMIN_PANEL ==> s.admin.Some?)
  }

  /** A handler's new state and the store writes it issued, in order. */
  datatype Transition = Transition(next: State, writes: seq<AuthService.Command>)

  // ---------------------------------------------------------------------
  // Handlers

  /** `handleLogin`, given what `login` resolved to. Without a configured
      store it only reports the disconnection. A user opens the dashboard;
      `null` and a thrown error leave the view and the form as they were and
      report the failure. */
  function HandleLogin(configured: bool, s: State, reply: AuthService.LoginReply): (t: State)
    ensures !configured ==> t == s.(error := MSG_DISCONNECTED)
    ensures configured && reply.LoggedIn? ==>
      t == s.(user := Some(reply.user), view := DASHBOARD, error := "")
    ensures configured && reply.NoUser? ==> t == s.(error := MSG_BAD_CREDENTIALS)
    ensures configured && reply.Threw? ==> t == s.(error := reply.message)
  {
    if !configured then s.(error := MSG_DISCONNECTED)
    else
      var cleared := s.(error := "");
      match reply
      case LoggedIn(u) => cleared.(user := Some(u), view := DASHBOARD)
      case NoUser => cleared.(error := MSG_BAD_CREDENTIALS)
      case Threw(message) => cleared.(error := message)
  }

  /** What `signup` did: returned a reply, or threw. */
  datatype SignupOutcome = SignupReturned(reply: AuthService.SignupReply) | SignupThrew

  /** `handleSignup`. Success clears the form and goes back to the login
      screen without signing anyone in; failure reports the reply's message
      (or the generic one if `signup` threw) and stays. */
  function HandleSignup(s: State, outcome: SignupOutcome): (t: State)
    ensures outcome.SignupReturned? && outcome.reply.success ==>
      t == s.(form := EMPTY_FORM, view := LOGIN, error := "")
    ensures outcome.SignupReturned? && !outcome.reply.success ==> t == s.(error := outcome.reply.message)
    ensures outcome.SignupThrew? ==> t == s.(error := MSG_SIGNUP_ERROR)
  {
    var cleared := s.(error := "");
    match outcome
    case SignupReturned(reply) =>
      if reply.success then cleared.(form := EMPTY_FORM, view := LOGIN)
      else cleared.(error := reply.message)
    case SignupThrew => cleared.(error := MSG_SIGNUP_ERROR)
  }

  /** `logout`: back to the login screen with no identity, no results, no
      error and an empty form. */
  function DoLogout(s: State): (t: State)
    ensures t.view == LOGIN && t.user.None? && t.admin.None?
    ensures t.results == [] && t.error == "" && t.form == EMPTY_FORM
    ensures t.allUsers == s.allUsers
  {
    s.(user := None, admin := None, view := LOGIN, results := [], error := "", form := EMPTY_FORM)
  }

  /** `handleAdminLogin`: the typed pair is checked by `adminLogin`. The one
      accepted pair opens the admin panel and clears the form; any other pair
      reports the failure and stays. */
  function HandleAdminLogin(s: State): (t: State)
    ensures s.form.email == AuthService.ADMIN_USER && s.form.password == AuthService.ADMIN_PASSWORD ==>
      t.view == ADMIN_PANEL && t.admin.Some? && t.form == EMPTY_FORM && t.error == ""
    ensures !(s.form.email == AuthService.ADMIN_USER && s.form.password == AuthService.ADMIN_PASSWORD) ==>
      t == s.(error := MSG_BAD_ADMIN)
    ensures t.user == s.user && t.results == s.results
  {
    var cleared := s.(error := "");
    match AuthService.AdminLogin(s.form.email, s.form.password)
    case Some(a) => cleared.(admin := Some(a), view := ADMIN_PANEL, form := EMPTY_FORM)
    case None => cleared.(error := MSG_BAD_ADMIN)
  }

  /** The file input: nothing chosen, a read that failed, or the data URL the
      reader produced. */
  datatype FileInput = NoFile | ReadFailed | FileRead(dataUrl: string)

  /** A thrown error's message as `handleFileUpload` shows it. */
  function ScanError(message: string): (shown: string)
    ensures shown != ""
    ensures message != "" ==> shown == message
  {
    if message == "" then MSG_SCAN_FALLBACK else message
  }

  /** The upload handler's steps once the file has been read: extraction,
      then (only on success) the results, the counter increment, and the
      refresh of the signed-in user. */
  function AfterRead(s: State, u: User, dataUrl: string, api: GeminiService.ApiReply,
                     mkId: nat -> string, refresh: AuthService.LoginReply): (t: Transition)
    ensures GeminiService.ExtractAddresses(dataUrl, api, mkId).Err? ==>
      t.writes == [] && t.next.results == s.results && t.next.user == s.user
    ensures GeminiService.ExtractAddresses(dataUrl, api, mkId).Ok? ==>
      t.writes == [AuthService.IncrementScan(u.id)]
      && t.next.results == GeminiService.ExtractAddresses(dataUrl, api, mkId).value
    ensures GeminiService.ExtractAddresses(dataUrl, api, mkId).Ok? && refresh.LoggedIn? ==>
      t.next.user == Some(refresh.user)
    ensures GeminiService.ExtractAddresses(dataUrl, api, mkId).Ok? && !refresh.LoggedIn? ==>
      t.next.user == s.user
    ensures GeminiService.ExtractAddresses(dataUrl, api, mkId).Ok? && refresh.NoUser? ==> t.next.error == s.error
    ensures GeminiService.ExtractAddresses(dataUrl, api, mkId).Ok? && refresh.Threw? ==>
      t.next.error == ScanError(refresh.message)
    ensures GeminiService.ExtractAddresses(dataUrl, api, mkId).Err? ==>
      t.next.error == ScanError(GeminiService.ExtractAddresses(dataUrl, api, mkId).message)
    ensures t.next.user.None? ==> s.user.None?
    ensures t.next.view == s.view && t.next.admin == s.admin
    ensures t.next.form == s.form && t.next.allUsers == s.allUsers
  {
    match GeminiService.ExtractAddresses(dataUrl, api, mkId)
    case Err(message) => Transition(s.(error := ScanError(message)), [])
    case Ok(stops) =>
      var shown := s.(results := stops);
      var writes := [AuthService.IncrementScan(u.id)];
      match refresh
      case LoggedIn(latest) => Transition(shown.(user := Some(latest)), writes)
      case NoUser => Transition(shown, writes)
      case Threw(message) => Transition(shown.(error := ScanError(message)), writes)
  }

  /** `handleFileUpload`. Without a file or a user nothing happens. A user
      out of quota gets the quota error before anything is read or called.
      Otherwise the error is cleared and the file is read and scanned. */
  function HandleFileUpload(s: State, file: FileInput, api: GeminiService.ApiReply,
                            mkId: nat -> string, refresh: AuthService.LoginReply): (t: Transition)
    ensures file.NoFile? || s.user.None? ==> t == Transition(s, [])
    ensures s.user.Some? && !file.NoFile? && !AuthService.CanUserScan(s.user.value) ==>
      t == Transition(s.(error := MSG_QUOTA), [])
    ensures file.ReadFailed? && s.user.Some? && AuthService.CanUserScan(s.user.value) ==>
      t == Transition(s.(error := MSG_READ_FAILED), [])
    ensures |t.writes| <= 1
    ensures t.next.user.None? ==> s.user.None?
    ensures t.next.view == s.view && t.next.admin == s.admin
  {
    if file.NoFile? || s.user.None? then Transition(s, [])
    else
      var u := s.user.value;
      if !AuthService.CanUserScan(u) then Transition(s.(error := MSG_QUOTA), [])
      else
        var started := s.(error := "");
        match file
        case ReadFailed => Transition(started.(error := MSG_READ_FAILED), [])
        case FileRead(dataUrl) => AfterRead(started, u, dataUrl, api, mkId, refresh)
  }

  /** `limiteAtingido`: the flag that disables the scan button. */
  function LimitReached(u: User): (reached: bool)
    ensures reached ==> u.plano == FREE
    ensures u.plano == FREE ==> (reached <==> !AuthService.CanUserScan(u))
  {
    u.plano == FREE && u.prints_neste_mes >= AuthService.FREE_SCAN_QUOTA
  }

  // ---------------------------------------------------------------------
  // Events

  /** Everything the rendered screens let happen, each with what the awaited
      services returned. */
  datatype Event =
    | ClickCreateAccount
    | ClickAdminConsole
    | ClickBack
    | TypeNome(value: string)
    | TypeEmail(value: string)
    | TypePassword(value: string)
    | SubmitLogin(loginReply: AuthService.LoginReply)
    | SubmitSignup(outcome: SignupOutcome)
    | SubmitAdminLogin
    | ClickLogout
    | PickFile(file: FileInput, api: GeminiService.ApiReply, mkId: nat -> string, refresh: AuthService.LoginReply)
    | AdminUsersLoaded(listing: AuthService.Listing, currentMonth: string, now: Instant)
    | ClickTogglePro(userId: string, now: Instant, in30Days: Instant)
    | ClickToggleBlock(userId: string)

  /** Whether the screen for `view` offers the event. */
  function Offers(view: ViewState, e: Event): (offered: bool)
    ensures view == FORGOT_PASSWORD ==> !offered
    ensures e.ClickCreateAccount? || e.ClickAdminConsole? || e.SubmitLogin? ==> (offered <==> view == LOGIN)
    ensures e.TypeNome? || e.SubmitSignup? ==> (offered <==> view == SIGNUP)
    ensures e.SubmitAdminLogin? ==> (offered <==> view == ADMIN_LOGIN)
    ensures e.TypeEmail? || e.TypePassword? ==> (offered <==> view in {LOGIN, SIGNUP, ADMIN_LOGIN})
    ensures e.ClickBack? ==> (offered <==> view in {SIGNUP, ADMIN_LOGIN})
    ensures e.ClickLogout? ==> (offered <==> view in {DASHBOARD, ADMIN_PANEL})
    ensures e.PickFile? ==> (offered <==> view == DASHBOARD)
    ensures e.ClickTogglePro? || e.ClickToggleBlock? || e.AdminUsersLoaded? ==> (offered <==> view == ADMIN_PANEL)
  {
    match view
    case LOGIN => e.ClickCreateAccount? || e.ClickAdminConsole? || e.TypeEmail? || e.TypePassword? || e.SubmitLogin?
    case SIGNUP => e.ClickBack? || e.TypeNome? || e.TypeEmail? || e.TypePassword? || e.SubmitSignup?
    case ADMIN_LOGIN => e.ClickBack? || e.TypeEmail? || e.TypePassword? || e.SubmitAdminLogin?
    case DASHBOARD => e.ClickLogout? || e.PickFile?
    case ADMIN_PANEL => e.ClickLogout? || e.AdminUsersLoaded? || e.ClickTogglePro? || e.ClickToggleBlock?
    case FORGOT_PASSWORD => false
  }

  /** The view changes any handler or button can make. */
  predicate IsViewEdge(from: ViewState, to: ViewState) {
    || (from == LOGIN && to == SIGNUP)
    || (from == LOGIN && to == ADMIN_LOGIN)
    || (from == SIGNUP && to == LOGIN)
    || (from == ADMIN_LOGIN && to == LOGIN)
    || (from == LOGIN && to == DASHBOARD)
    || (from == ADMIN_LOGIN && to == ADMIN_PANEL)
    || (from == DASHBOARD && to == LOGIN)
    || (from == ADMIN_PANEL && to == LOGIN)
  }

  /** One event on the current screen. An event the screen does not offer
      changes nothing. Every step keeps the session invariant, and the view
      only ever moves along the edges of `IsViewEdge`. */
  function Step(configured: bool, s: State, e: Event): (t: Transition)
    ensures !Offers(s.view, e) ==> t == Transition(s, [])
    ensures Inv(s) ==> Inv(t.next)
    ensures t.next.view != s.view ==> IsViewEdge(s.view, t.next.view)
  {
    if !Offers(s.view, e) then Transition(s, [])
    else match e
      case ClickCreateAccount => Transition(s.(view := SIGNUP), [])
      case ClickAdminConsole => Transition(s.(view := ADMIN_LOGIN), [])
      case ClickBack => Transition(s.(view := LOGIN), [])
      case TypeNome(v) => Transition(s.(form := s.form.(nome := v)), [])
      case TypeEmail(v) => Transition(s.(form := s.form.(email := v)), [])
      case TypePassword(v) => Transition(s.(form := s.form.(password := v)), [])
      case SubmitLogin(reply) => Transition(HandleLogin(configured, s, reply), [])
      case SubmitSignup(outcome) => Transition(HandleSignup(s, outcome), [])
      case SubmitAdminLogin => Transition(HandleAdminLogin(s), [])
      case ClickLogout => Transition(DoLogout(s), [])
      case PickFile(file, api, mkId, refresh) => HandleFileUpload(s, file, api, mkId, refresh)
      case AdminUsersLoaded(listing, currentMonth, now) =>
        Transition(s.(allUsers := AuthService.GetUsers(configured, listing, currentMonth, now)), [])
      case ClickTogglePro(id, now, in30Days) => Transition(s, [AuthService.TogglePlan(id, now, in30Days)])
      case ClickToggleBlock(id) => Transition(s, [AuthService.ToggleBlocked(id)])
  }

  /** The state after a sequence of events. The invariant holds throughout,
      and a run that does not start on the unused password-recovery screen
      never reaches it. */
  function Run(configured: bool, s: State, events: seq<Event>): (t: State)
    ensures Inv(s) ==> Inv(t)
    ensures s.view != FORGOT_PASSWORD ==> t.view != FORGOT_PASSWORD
    decreases |events|
  {
    if events == [] then s
    else Run(configured, Step(configured, s, events[0]).next, events[1..])
  }
}

=== FILE: app_facts.dfy ===
/** Properties of the session state machine in `App`: navigation, the scan
    workflow against the store, and the scan-button flag. */
module AppFacts {
  import opened Types
  import AuthService
  import AuthFacts
  import GeminiService
  import Strings
  import opened App

  /** The navigation buttons change the view and nothing else, and only
      along LOGIN to SIGNUP, LOGIN to ADMIN_LOGIN, SIGNUP to LOGIN and
      ADMIN_LOGIN to LOGIN. */
  lemma NavigationEdges(configured: bool, s: State, e: Event)
    requires e.ClickCreateAccount? || e.ClickAdminConsole? || e.ClickBack?
    ensures var t := Step(configured, s, e);
      t.writes == [] && t.next == s.(view := t.next.view)
      && (t.next.view != s.view ==>
            (s.view == LOGIN && t.next.view == SIGNUP)
            || (s.view == LOGIN && t.next.view == ADMIN_LOGIN)
            || (s.view == SIGNUP && t.next.view == LOGIN)
            || (s.view == ADMIN_LOGIN && t.next.view == LOGIN))
  {
  }

  /** Every edge of `IsViewEdge` is taken by some event from some state that
      satisfies the invariant, so the edge set is exact. */
  lemma ViewEdgesAreTaken(from: ViewState, to: ViewState, u: User, a: Admin)
    requires IsViewEdge(from, to)
    ensures exists s: State, e: Event :: Inv(s) && s.view == from && Step(true, s, e).next.view == to
  {
    var base := INITIAL.(view := from, user := Some(u), admin := Some(a));
    if from == LOGIN && to == SIGNUP {
      assert Step(true, base, ClickCreateAccount).next.view == to;
    } else if from == LOGIN && to == ADMIN_LOGIN {
      assert Step(true, base, ClickAdminConsole).next.view == to;
    } else if from == LOGIN && to == DASHBOARD {
      assert Step(true, base, SubmitLogin(AuthService.LoggedIn(u))).next.view == to;
    } else if from == ADMIN_LOGIN && to == ADMIN_PANEL {
      var s := base.(form := Form("", AuthService.ADMIN_USER, AuthService.ADMIN_PASSWORD));
      assert Step(true, s, SubmitAdminLogin).next.view == to;
    } else if from == SIGNUP || from == ADMIN_LOGIN {
      assert Step(true, base, ClickBack).next.view == to;
    } else {
      assert Step(true, base, ClickLogout).next.view == to;
    }
  }

  /** From the initial state, every sequence of events keeps the invariant
      and never shows the password-recovery screen. */
  lemma ReachableStates(configured: bool, events: seq<Event>)
    ensures Inv(Run(configured, INITIAL, events))
    ensures Run(configured, INITIAL, events).view != FORGOT_PASSWORD
  {
  }

  /** Logging out of either signed-in screen ends both sessions and clears
      the results, the error and the form. */
  lemma LogoutEndsSession(configured: bool, s: State)
    requires s.view == DASHBOARD || s.view == ADMIN_PANEL
    ensures var t := Step(configured, s, ClickLogout).next;
      t.view == LOGIN && t.user.None? && t.admin.None? && t.results == [] && t.error == "" && t.form == EMPTY_FORM
  {
  }

  /** The correct credentials of a blocked account leave the login screen in
      place with the blocked message, and nobody signed in. */
  lemma BlockedAccountStaysOut(s: State, row: AuthService.Row, currentMonth: string, now: Instant)
    requires s.view == LOGIN && AuthService.IsBlocked(row)
    ensures var t := Step(true, s, SubmitLogin(AuthService.Login(true, AuthService.Found(row), currentMonth, now))).next;
      t.view == LOGIN && t.user == s.user && t.error == AuthService.MSG_BLOCKED && t.form == s.form
  {
  }

  /** A user out of quota gets the quota error: nothing is read, nothing is
      written and the results stay as they were. */
  lemma QuotaStopsScan(s: State, file: FileInput, api: GeminiService.ApiReply,
                       mkId: nat -> string, refresh: AuthService.LoginReply)
    requires s.view == DASHBOARD && s.user.Some? && !file.NoFile?
    requires !AuthService.CanUserScan(s.user.value)
    ensures var t := Step(true, s, PickFile(file, api, mkId, refresh));
      t.writes == [] && t.next.results == s.results && t.next.error == MSG_QUOTA
  {
  }

  /** A successful scan replaces the results with the extracted stops and
      adds exactly one to the user's stored counter; no other row changes. */
  lemma SuccessfulScan(s: State, store: AuthService.Store, dataUrl: string, api: GeminiService.ApiReply,
                       mkId: nat -> string, refresh: AuthService.LoginReply)
    requires s.view == DASHBOARD && s.user.Some? && AuthService.CanUserScan(s.user.value)
    requires s.user.value.id in store
    requires GeminiService.ExtractAddresses(dataUrl, api, mkId).Ok?
    ensures var t := Step(true, s, PickFile(FileRead(dataUrl), api, mkId, refresh));
      var store' := AuthService.ApplyAll(true, store, t.writes);
      var id := s.user.value.id;
      t.next.results == GeminiService.ExtractAddresses(dataUrl, api, mkId).value
      && AuthService.StoredUploads(store'[id]) == AuthService.StoredUploads(store[id]) + 1
      && (forall other :: other in store && other != id ==> store'[other] == store[other])
  {
    AuthFacts.IncrementOnce(store, s.user.value.id);
  }

  /** The refresh after a successful scan logs in again with the signed-in
      user's e-mail and password against the store the increment was
      written to, so the user left on the dashboard carries the incremented
      counter. */
  lemma ScanRefreshSeesIncrement(s: State, store: AuthService.Store, dataUrl: string, api: GeminiService.ApiReply,
                                 mkId: nat -> string, currentMonth: string, now: Instant)
    requires s.view == DASHBOARD && s.user.Some? && AuthService.CanUserScan(s.user.value)
    requires AuthFacts.WellFormed(store)
    requires var u := s.user.value;
      u.id in store && store[u.id].email == Strings.Lower(u.email) && store[u.id].senha_hash == u.senha_hash
      && !AuthService.IsBlocked(store[u.id])
    requires GeminiService.ExtractAddresses(dataUrl, api, mkId).Ok?
    ensures var u := s.user.value;
      var store' := AuthService.ApplyAll(true, store, [AuthService.IncrementScan(u.id)]);
      var refresh := AuthService.Login(true, AuthService.LookupCredentials(store', u.email, u.senha_hash), currentMonth, now);
      var t := Step(true, s, PickFile(FileRead(dataUrl), api, mkId, refresh));
      t.writes == [AuthService.IncrementScan(u.id)]
      && t.next.user.Some? && t.next.user.value.id == u.id
      && t.next.user.value.prints_neste_mes == AuthService.StoredUploads(store[u.id]) + 1
  {
    var u := s.user.value;
    AuthFacts.RefreshAfterIncrement(store, u.id, u.email, u.senha_hash, currentMonth, now);
  }

  /** A failed extraction reports its message and changes neither the
      results nor the store. */
  lemma FailedScan(s: State, store: AuthService.Store, dataUrl: string, api: GeminiService.ApiReply,
                   mkId: nat -> string, refresh: AuthService.LoginReply)
    requires s.view == DASHBOARD && s.user.Some? && AuthService.CanUserScan(s.user.value)
    requires GeminiService.ExtractAddresses(dataUrl, api, mkId).Err?
    ensures var t := Step(true, s, PickFile(FileRead(dataUrl), api, mkId, refresh));
      t.next.results == s.results && AuthService.ApplyAll(true, store, t.writes) == store
      && t.next.error == GeminiService.ExtractAddresses(dataUrl, api, mkId).message
  {
  }

  /** For the two plans the store holds, the scan button is disabled exactly
      when `canUserScan` refuses. */
  lemma LimitFlagMatchesQuota(u: User)
    requires u.plano == FREE || u.plano == PRO
    ensures LimitReached(u) <==> !AuthService.CanUserScan(u)
  {
  }

  /** Every user listed from rows whose plans the application wrote has one
      of the two plans, so its scan-button flag agrees with `canUserScan`. */
  lemma ListedFlagsAgree(configured: bool, rows: seq<AuthService.Row>, currentMonth: string, now: Instant)
    requires forall i :: 0 <= i < |rows| ==> rows[i].plano in {None, Some(FREE), Some(PRO)}
    ensures var users := AuthService.GetUsers(configured, AuthService.Listed(rows), currentMonth, now);
      forall i :: 0 <= i < |users| ==> (LimitReached(users[i]) <==> !AuthService.CanUserScan(users[i]))
  {
    var users := AuthService.GetUsers(configured, AuthService.Listed(rows), currentMonth, now);
    forall i | 0 <= i < |users| ensures LimitReached(users[i]) <==> !AuthService.CanUserScan(users[i]) {
      assert users[i].plano == FREE || users[i].plano == PRO;
      LimitFlagMatchesQuota(users[i]);
    }
  }
}

=== FILE: auth_facts.dfy ===
/** Properties of the usage accounting and of the store operations in
    `AuthService`: involutions, idempotence, and the store invariants the
    application's writes keep. */
module AuthFacts {
  import opened Types
  import opened Strings
  import opened AuthService

  // ---------------------------------------------------------------------
  // Store invariants

  /** Every row sits under its own id. */
  ghost predicate KeysMatchIds(store: Store) {
    forall id :: id in store ==> store[id].id == id
  }

  /** No two rows share an e-mail. */
  ghost predicate UniqueEmails(store: Store) {
    forall a, b :: a in store && b in store && store[a].email == store[b].email ==> a == b
  }

  /** Every e-mail is stored lower-cased. */
  ghost predicate EmailsLowered(store: Store) {
    forall id :: id in store ==> Lower(store[id].email) == store[id].email
  }

  /** Every plan the store holds is one of the two the application writes
      (or absent, which reads as `free`). */
  ghost predicate PlansKnown(store: Store) {
    forall id :: id in store ==> store[id].plano in {None, Some(FREE), Some(PRO)}
  }

  ghost predicate WellFormed(store: Store) {
    KeysMatchIds(store) && UniqueEmails(store) && EmailsLowered(store) && PlansKnown(store)
  }

  /** Under unique e-mails, an e-mail query matches at most one row. */
  lemma AtMostOneEmailMatch(store: Store, email: string)
    requires UniqueEmails(store)
    ensures |EmailIds(store, email)| <= 1
  {
    var ids := EmailIds(store, email);
    if ids != {} {
      var a :| a in ids;
      assert ids == {a} by {
        forall b | b in ids ensures b == a {
        }
      }
    }
  }

  /** The duplicate check of `signup` sees an e-mail already in a store with
      unique e-mails. */
  lemma EmailLookupFinds(store: Store, email: string, id: string)
    requires UniqueEmails(store)
    requires id in store && store[id].email == Lower(email)
    ensures LookupEmail(store, email) == Found(store[id])
  {
    var ids := EmailIds(store, Lower(email));
    assert id in ids;
    AtMostOneEmailMatch(store, Lower(email));
    assert |ids| == 1 by {
      assert |ids| >= 1 by { assert ids != {}; }
    }
    SingletonMembersEqual(ids);
  }

  /** Signing up with an e-mail that is already registered (in any letter
      case) fails with the duplicate message and inserts nothing. */
  lemma DuplicateSignupRejected(store: Store, insert: Insert, nome: string, email: string, pass: string,
                                currentMonth: string, now: Instant, id: string)
    requires UniqueEmails(store)
    requires id in store && store[id].email == Lower(email)
    ensures var r := Signup(true, LookupEmail(store, email), insert, nome, email, pass, currentMonth, now);
      r.reply == SignupReply(false, MSG_EMAIL_TAKEN) && SignupStore(store, r) == store
  {
    EmailLookupFinds(store, email, id);
  }

  /** A sign-up against the store keeps every store invariant, provided the
      store hands out a fresh id. */
  lemma SignupKeepsWellFormed(store: Store, configured: bool, insert: Insert, nome: string, email: string,
                              pass: string, currentMonth: string, now: Instant)
    requires WellFormed(store)
    requires insert.Inserted? ==> insert.id !in store
    ensures WellFormed(SignupStore(store, Signup(configured, LookupEmail(store, email), insert, nome, email, pass, currentMonth, now)))
  {
    var r := Signup(configured, LookupEmail(store, email), insert, nome, email, pass, currentMonth, now);
    if r.inserted.Some? {
      var row := r.inserted.value;
      var s' := SignupStore(store, r);
      assert LookupEmail(store, email).Missing? by {
        AtMostOneEmailMatch(store, Lower(email));
      }
      assert EmailIds(store, Lower(email)) == {};
      forall id | id in store ensures store[id].email != row.email {
        assert id !in EmailIds(store, Lower(email));
      }
      LowerIdempotent(email);
      assert UniqueEmails(s') by {
        forall a, b | a in s' && b in s' && s'[a].email == s'[b].email ensures a == b {
          if a != row.id && b != row.id {
            assert s'[a] == store[a] && s'[b] == store[b];
          }
        }
      }
    }
  }

  /** A command only rewrites the plan, the block flag or the counter, so
      every store invariant survives it. */
  lemma ApplyKeepsWellFormed(configured: bool, store: Store, cmd: Command)
    requires WellFormed(store)
    ensures WellFormed(Apply(configured, store, cmd))
  {
    var s' := Apply(configured, store, cmd);
    forall id | id in s'
      ensures s'[id].id == store[id].id && s'[id].email == store[id].email
      ensures s'[id].plano in {None, Some(FREE), Some(PRO)}
    {
    }
  }

  lemma {:induction false} ApplyAllKeepsWellFormed(configured: bool, store: Store, cmds: seq<Command>)
    requires WellFormed(store)
    ensures WellFormed(ApplyAll(configured, store, cmds))
    decreases |cmds|
  {
    if cmds != [] {
      ApplyKeepsWellFormed(configured, store, cmds[0]);
      ApplyAllKeepsWellFormed(configured, Apply(configured, store, cmds[0]), cmds[1..]);
    }
  }

  // ---------------------------------------------------------------------
  // Login against the store

  /** A login that succeeds found exactly the row stored under the
      lower-cased e-mail and the password as typed, and that row is not
      blocked. */
  lemma LoginFindsStoredRow(store: Store, email: string, pass: string, currentMonth: string, now: Instant)
    requires Login(true, LookupCredentials(store, email, pass), currentMonth, now).LoggedIn?
    ensures exists id :: (id in store && store[id].email == Lower(email) && store[id].senha_hash == pass
      && !IsBlocked(store[id])
      && Login(true, LookupCredentials(store, email, pass), currentMonth, now).user == ToUser(store[id], currentMonth, now))
  {
    var lookup := LookupCredentials(store, email, pass);
    var id :| id in CredentialIds(store, Lower(email), pass) && store[id] == lookup.row;
  }

  /** The correct credentials of a blocked account raise the blocked error
      instead of returning a user. */
  lemma BlockedLoginThrows(store: Store, email: string, pass: string, currentMonth: string, now: Instant, id: string)
    requires UniqueEmails(store)
    requires id in store && store[id].email == Lower(email) && store[id].senha_hash == pass
    requires IsBlocked(store[id])
    ensures Login(true, LookupCredentials(store, email, pass), currentMonth, now) == Threw(MSG_BLOCKED)
  {
    var ids := CredentialIds(store, Lower(email), pass);
    assert ids == {id} by {
      forall b | b in ids ensures b == id {
      }
    }
    SingletonMembersEqual(ids);
  }

  /** `login` does not apply the monthly reset: a free account that used its
      quota in an earlier month still comes back unable to scan, although the
      reset that listing applies would give it a fresh quota. */
  lemma LoginKeepsStaleCounter(row: Row, currentMonth: string, now: Instant)
    requires !IsBlocked(row) && row.plano == Some(FREE)
    requires row.uploads_usados == Some(FREE_SCAN_QUOTA)
    requires row.ultimo_mes_uso.Some? && row.ultimo_mes_uso.value != "" && row.ultimo_mes_uso.value != currentMonth
    ensures var u := Login(true, Found(row), currentMonth, now).user;
      !CanUserScan(u) && CanUserScan(Reconcile(u, currentMonth))
  {
  }

  // ---------------------------------------------------------------------
  // Row updates

  /** Two plan toggles on a row that is not `pro` leave it `free` with no plan
      dates and every other column as it was; on a `free` row without plan
      dates they change nothing at all. */
  lemma TogglePlanTwice(row: Row, now1: Instant, in30a: Instant, now2: Instant, in30b: Instant)
    requires row.plano != Some(PRO)
    ensures TogglePro(TogglePro(row, now1, in30a), now2, in30b)
      == row.(plano := Some(FREE), data_inicio_plano := None, data_fim_plano := None)
    ensures row.plano == Some(FREE) && row.data_inicio_plano.None? && row.data_fim_plano.None? ==>
      TogglePro(TogglePro(row, now1, in30a), now2, in30b) == row
  {
  }

  /** Two block toggles restore whether the row is blocked, and restore the
      row itself when its flag was stored. */
  lemma ToggleBlockTwice(row: Row)
    ensures IsBlocked(ToggleBlock(ToggleBlock(row))) == IsBlocked(row)
    ensures ToggleBlock(ToggleBlock(row)) == row <==> row.bloqueado.Some?
  {
  }

  /** Running one increment against the store adds exactly one to the stored
      counter of that user and leaves every other row alone. */
  lemma IncrementOnce(store: Store, id: string)
    requires id in store
    ensures var s' := ApplyAll(true, store, [IncrementScan(id)]);
      StoredUploads(s'[id]) == StoredUploads(store[id]) + 1
      && forall other :: other in store && other != id ==> s'[other] == store[other]
  {
    assert [IncrementScan(id)][1..] == [];
  }

  /** Logging in again with a user's credentials after an increment to that
      user's row returns the user with the incremented counter. */
  lemma RefreshAfterIncrement(store: Store, id: string, email: string, pass: string, currentMonth: string, now: Instant)
    requires WellFormed(store)
    requires id in store && store[id].email == Lower(email) && store[id].senha_hash == pass
    requires !IsBlocked(store[id])
    ensures var store' := ApplyAll(true, store, [IncrementScan(id)]);
      var r := Login(true, LookupCredentials(store', email, pass), currentMonth, now);
      r.LoggedIn? && r.user.id == id && r.user.prints_neste_mes == StoredUploads(store[id]) + 1
  {
    var cmds := [IncrementScan(id)];
    assert cmds[1..] == [];
    var store' := ApplyAll(true, store, cmds);
    assert ApplyAll(true, Apply(true, store, cmds[0]), []) == Apply(true, store, cmds[0]);
    assert store' == Apply(true, store, cmds[0]);
    ApplyKeepsWellFormed(true, store, cmds[0]);
    var ids := CredentialIds(store', Lower(email), pass);
    assert ids == {id} by {
      forall b | b in ids ensures b == id {
      }
    }
    SingletonMembersEqual(ids);
    assert LookupCredentials(store', email, pass) == Found(store'[id]);
  }

  // ---------------------------------------------------------------------
  // Listing and quota

  /** After a listing, reconciling again changes no user: the reset is
      idempotent over the whole list. */
  lemma ListingIsReconciled(configured: bool, listing: Listing, currentMonth: string, now: Instant)
    ensures var users := GetUsers(configured, listing, currentMonth, now);
      forall i :: 0 <= i < |users| ==> Reconcile(users[i], currentMonth) == users[i]
  {
  }

  /** A fresh sign-up row, read back in the month it was created, is a `free`
      user with no scans who may scan. */
  lemma NewUserMayScan(id: string, nome: string, email: string, pass: string, currentMonth: string, now: Instant)
    requires currentMonth != ""
    ensures var u := ToUser(NewUserRow(id, nome, email, pass, currentMonth, now), currentMonth, now);
      u.plano == FREE && u.prints_neste_mes == 0 && !u.bloqueado && !u.email_verificado
      && u.ultimo_mes_uso == currentMonth && u.email == Lower(email) && CanUserScan(u)
  {
  }
}

=== FILE: auth_service.dfy ===
/** Usage accounting and the row rules of the user store
    (services/authService.ts).

    The remote `users` table is a map from id to `Row`. What a query returned
    (a row, no row, an error, the listed rows, the outcome of an insert) is
    an input of the operation that consumed it; `LookupCredentials` and
    `LookupEmail` say what a `.single()` query returns for a given store.
    The clock is a parameter: the current month key and the current instant. */
module AuthService {
  import opened Types
  import opened Strings

  /** Scans a `free` user may run per month key. */
  const FREE_SCAN_QUOTA: int := 10

  /** The administrator pair checked by `adminLogin`. The deployed values are
      not reproduced; any fixed pair behaves the same. */
  const ADMIN_USER: string := "admin.user"
  const ADMIN_PASSWORD: string := "admin.password"
  const ADMIN_ID: string := "admin-master"

  const MSG_BLOCKED: string := "Acesso bloqueado."
  const MSG_EMAIL_TAKEN: string := "E-mail já cadastrado."
  const MSG_NOT_INITIALIZED: string := "Banco não inicializado."
  const MSG_SIGNUP_OK: string := "Usuário registrado com sucesso no banco externo!"
  const MSG_PERSIST_PREFIX: string := "Falha na persistência: "

  /** A row of the `users` table. A column the store left null or did not
      send is `None`; timestamps arrive already converted to instants. */
  datatype Row = Row(
    id: string,
    nome: string,
    email: string,
    senha_hash: string,
    email_confirmado: Option<bool>,
    plano: Option<string>,
    data_inicio_plano: Option<Instant>,
    data_fim_plano: Option<Instant>,
    data_criacao: Option<Instant>,
    bloqueado: Option<bool>,
    uploads_usados: Option<int>,
    ultimo_mes_uso: Option<string>)

  /** The `users` table, keyed by `id`. */
  type Store = map<string, Row>

  /** `getSupabase`'s guard: both settings present, and the key is not one of
      the vision service's keys (those start with `AIza`). */
  function IsConfigured(url: string, anonKey: string): (ok: bool)
    ensures ok ==> url != [] && |anonKey| >= 1
    ensures |anonKey| >= 4 && anonKey[..4] == "AIza" ==> !ok
    ensures url != [] && anonKey != [] && !(|anonKey| >= 4 && anonKey[..4] == "AIza") ==> ok
  {
    url != "" && anonKey != "" && !StartsWith(anonKey, "AIza")
  }

  // ---------------------------------------------------------------------
  // JavaScript `||` defaulting of row columns

  /** `s || fallback` for a string column: null and `""` are falsy. */
  function TextOr(s: Option<string>, fallback: string): string {
    if s.Some? && s.value != "" then s.value else fallback
  }

  /** Whether the row's `bloqueado` column is truthy. */
  predicate IsBlocked(row: Row) {
    row.bloqueado == Some(true)
  }

  /** `uploads_usados || 0`. */
  function StoredUploads(row: Row): int {
    row.uploads_usados.GetOr(0)
  }

  /** Builds a `User` from a row, defaulting every missing column: plan to
      `free`, uploads to 0, the two flags to false, the month to the current
      key and the creation time to now. Present values are kept. */
  function ToUser(row: Row, currentMonth: string, now: Instant): (u: User)
    ensures u.id == row.id && u.nome == row.nome && u.email == row.email
    ensures u.senha_hash == row.senha_hash
    ensures u.email_verificado <==> row.email_confirmado == Some(true)
    ensures row.plano.None? || row.plano == Some("") ==> u.plano == FREE
    ensures row.plano.Some? && row.plano.value != "" ==> u.plano == row.plano.value
    ensures u.pro_expira_em == row.data_fim_plano
    ensures row.data_criacao.None? ==> u.criado_em == now
    ensures row.data_criacao.Some? ==> u.criado_em == row.data_criacao.value
    ensures u.bloqueado <==> IsBlocked(row)
    ensures row.uploads_usados.None? ==> u.prints_neste_mes == 0
    ensures row.uploads_usados.Some? ==> u.prints_neste_mes == row.uploads_usados.value
    ensures row.ultimo_mes_uso.None? || row.ultimo_mes_uso == Some("") ==> u.ultimo_mes_uso == currentMonth
    ensures row.ultimo_mes_uso.Some? && row.ultimo_mes_uso.value != "" ==> u.ultimo_mes_uso == row.ultimo_mes_uso.value
  {
    User(
      id := row.id,
      nome := row.nome,
      email := row.email,
      senha_hash := row.senha_hash,
      email_verificado := row.email_confirmado.GetOr(false),
      plano := TextOr(row.plano, FREE),
      pro_expira_em := row.data_fim_plano,
      criado_em := row.data_criacao.GetOr(now),
      bloqueado := row.bloqueado.GetOr(false),
      prints_neste_mes := StoredUploads(row),
      ultimo_mes_uso := TextOr(row.ultimo_mes_uso, currentMonth))
  }

  /** The row that stores `u` with every column present (the plan start,
      which `User` does not carry, left null). */
  function RowOf(u: User): Row {
    Row(u.id, u.nome, u.email, u.senha_hash, Some(u.email_verificado), Some(u.plano),
        None, u.pro_expira_em, Some(u.criado_em), Some(u.bloqueado),
        Some(u.prints_neste_mes), Some(u.ultimo_mes_uso))
  }

  /** Defaulting never overrides a value that is present: a user written out
      as a full row reads back unchanged, whatever the clock says. */
  lemma ToUserOfFullRow(u: User, currentMonth: string, now: Instant)
    requires u.plano != "" && u.ultimo_mes_uso != ""
    ensures ToUser(RowOf(u), currentMonth, now) == u
  {
  }

  /** The monthly quota reset applied to each listed user: a counter kept
      under another month key counts as zero in the current month. Only the
      counter and the month key can change, and the month key always ends up
      current. */
  function Reconcile(u: User, currentMonth: string): (r: User)
    ensures r.ultimo_mes_uso == currentMonth
    ensures r.prints_neste_mes == (if u.ultimo_mes_uso == currentMonth then u.prints_neste_mes else 0)
    ensures r.(prints_neste_mes := u.prints_neste_mes, ultimo_mes_uso := u.ultimo_mes_uso) == u
  {
    if u.ultimo_mes_uso != currentMonth then
      u.(prints_neste_mes := 0, ultimo_mes_uso := currentMonth)
    else u
  }

  /** Reconciling an already reconciled user changes nothing, and a user
      already in the current month is left exactly as is. */
  lemma ReconcileIdempotent(u: User, currentMonth: string)
    ensures Reconcile(Reconcile(u, currentMonth), currentMonth) == Reconcile(u, currentMonth)
    ensures u.ultimo_mes_uso == currentMonth ==> Reconcile(u, currentMonth) == u
  {
  }

  /** What the listing query returned. */
  datatype Listing = ListFailed | Listed(rows: seq<Row>)

  /** The per-row mapping of `getUsers`: defaulting, then the reset. */
  function ListUsers(rows: seq<Row>, currentMonth: string, now: Instant): (users: seq<User>)
    ensures |users| == |rows|
    ensures forall i :: 0 <= i < |rows| ==> users[i].ultimo_mes_uso == currentMonth
    ensures forall i :: 0 <= i < |rows| ==>
      users[i].prints_neste_mes ==
        (if TextOr(rows[i].ultimo_mes_uso, currentMonth) == currentMonth then StoredUploads(rows[i]) else 0)
    ensures forall i :: 0 <= i < |rows| ==>
      users[i].(prints_neste_mes := StoredUploads(rows[i]), ultimo_mes_uso := TextOr(rows[i].ultimo_mes_uso, currentMonth))
        == ToUser(rows[i], currentMonth, now)
  {
    if rows == [] then []
    else [Reconcile(ToUser(rows[0], currentMonth, now), currentMonth)] + ListUsers(rows[1..], currentMonth, now)
  }

  /** `getUsers`: nothing when the store is not configured or the query
      failed; otherwise every row as a reconciled user, in the order the
      store listed them (newest first). */
  function GetUsers(configured: bool, listing: Listing, currentMonth: string, now: Instant): (users: seq<User>)
    ensures !configured || listing.ListFailed? ==> users == []
    ensures configured && listing.Listed? ==> |users| == |listing.rows|
    ensures forall i :: 0 <= i < |users| ==> users[i].ultimo_mes_uso == currentMonth
    ensures forall i :: 0 <= i < |users| ==> users[i].id == listing.rows[i].id
    ensures configured && listing.Listed? ==> users == ListUsers(listing.rows, currentMonth, now)
  {
    if !configured then []
    else match listing
      case ListFailed => []
      case Listed(rows) => ListUsers(rows, currentMonth, now)
  }

  /** `canUserScan`: a `pro` user may always scan; anyone else only while
      under the monthly quota. */
  function CanUserScan(u: User): (ok: bool)
    ensures u.plano == PRO ==> ok
    ensures u.plano != PRO ==> (ok <==> u.prints_neste_mes < FREE_SCAN_QUOTA)
  {
    if u.plano == PRO then true else u.prints_neste_mes < FREE_SCAN_QUOTA
  }

  // ---------------------------------------------------------------------
  // Queries with `.single()`

  /** What a `.single()` query returned: its one row, no row, or an error
      (which the store also reports when several rows match). */
  datatype Lookup = Found(row: Row) | Missing | Failed

  /** The ids of the rows matching a predicate on the store's contents. */
  function CredentialIds(store: Store, email: string, pass: string): (ids: set<string>)
    ensures ids <= store.Keys
    ensures forall id :: id in ids <==> id in store && store[id].email == email && store[id].senha_hash == pass
  {
    set id | id in store && store[id].email == email && store[id].senha_hash == pass
  }

  function EmailIds(store: Store, email: string): (ids: set<string>)
    ensures ids <= store.Keys
    ensures forall id :: id in ids <==> id in store && store[id].email == email
  {
    set id | id in store && store[id].email == email
  }

  lemma SingletonMembersEqual<T>(s: set<T>)
    requires |s| == 1
    ensures forall a, b :: a in s && b in s ==> a == b
  {
    forall a, b | a in s && b in s ensures a == b {
      assert |s - {a}| == 0;
      assert b !in s - {a};
    }
  }

  /** `.single()` over the rows whose ids are `ids`. */
  function Single(store: Store, ids: set<string>): (r: Lookup)
    requires ids <= store.Keys
    ensures r.Found? <==> |ids| == 1
    ensures r.Found? ==> exists id :: id in ids && store[id] == r.row
    ensures r.Missing? <==> ids == {}
  {
    if |ids| == 1 then
      SingletonMembersEqual(ids);
      var id :| id in ids;
      Found(store[id])
    else if ids == {} then Missing
    else Failed
  }

  /** The query `login` sends: lower-cased e-mail and the password as typed.
      A row comes back only if it holds both; no row comes back exactly when
      none does; two or more matching rows are an error. */
  function LookupCredentials(store: Store, email: string, pass: string): (r: Lookup)
    ensures r.Found? ==> r.row in store.Values && r.row.email == Lower(email) && r.row.senha_hash == pass
    ensures r.Missing? <==> forall id :: id in store ==> !(store[id].email == Lower(email) && store[id].senha_hash == pass)
    ensures r.Found? <==> |CredentialIds(store, Lower(email), pass)| == 1
    ensures r.Failed? <==> |CredentialIds(store, Lower(email), pass)| >= 2
  {
    var ids := CredentialIds(store, Lower(email), pass);
    if ids == {} then Missing
    else Single(store, ids)
  }

  /** The query `signup` sends to detect an e-mail already in use: a row comes
      back only if it holds the lower-cased e-mail, and none comes back
      exactly when no row holds it. */
  function LookupEmail(store: Store, email: string): (r: Lookup)
    ensures r.Found? ==> r.row in store.Values && r.row.email == Lower(email)
    ensures r.Missing? <==> forall id :: id in store ==> store[id].email != Lower(email)
    ensures r.Found? <==> |EmailIds(store, Lower(email))| == 1
    ensures r.Failed? <==> |EmailIds(store, Lower(email))| >= 2
  {
    var ids := EmailIds(store, Lower(email));
    if ids == {} then Missing
    else Single(store, ids)
  }

  // ---------------------------------------------------------------------
  // Login, administrator login, sign-up

  /** What `login` resolved to: `null`, a thrown error, or a user. */
  datatype LoginReply = NoUser | Threw(message: string) | LoggedIn(user: User)

  /** `login`, given what its credential query returned. A missing row or an
      error is `null`; a blocked row throws; any other row comes back as a
      user built by `ToUser`, with its counter exactly as stored. */
  function Login(configured: bool, lookup: Lookup, currentMonth: string, now: Instant): (r: LoginReply)
    ensures r.LoggedIn? <==> configured && lookup.Found? && !IsBlocked(lookup.row)
    ensures r.Threw? <==> configured && lookup.Found? && IsBlocked(lookup.row)
    ensures r.Threw? ==> r.message == MSG_BLOCKED
    ensures r.LoggedIn? ==> r.user == ToUser(lookup.row, currentMonth, now)
    ensures r.LoggedIn? ==> r.user.prints_neste_mes == StoredUploads(lookup.row)
  {
    if !configured then NoUser
    else match lookup
      case Found(row) => if IsBlocked(row) then Threw(MSG_BLOCKED) else LoggedIn(ToUser(row, currentMonth, now))
      case _ => NoUser
  }

  /** `adminLogin`: only the one fixed pair is accepted. */
  function AdminLogin(login: string, pass: string): (r: Option<Admin>)
    ensures r.Some? <==> login == ADMIN_USER && pass == ADMIN_PASSWORD
    ensures r.Some? ==> r.value == Admin(ADMIN_ID, login, pass)
  {
    if login == ADMIN_USER && pass == ADMIN_PASSWORD then Some(Admin(ADMIN_ID, login, pass)) else None
  }

  /** What the insert of a new row returned: the id the store gave the row,
      or the store's error message. */
  datatype Insert = Inserted(id: string) | InsertFailed(message: string)

  /** `signup`'s reply. */
  datatype SignupReply = SignupReply(success: bool, message: string)

  /** `signup`'s reply, and the row it inserted if any. */
  datatype SignupResult = SignupResult(reply: SignupReply, inserted: Option<Row>)

  /** The row `signup` inserts: lower-cased e-mail, plan `free`, no uploads,
      the current month, not blocked, e-mail not confirmed, created now. */
  function NewUserRow(id: string, nome: string, email: string, pass: string, currentMonth: string, now: Instant): (row: Row)
    ensures row.email == Lower(email) && row.senha_hash == pass && row.nome == nome && row.id == id
    ensures row.plano == Some(FREE) && row.uploads_usados == Some(0)
    ensures row.ultimo_mes_uso == Some(currentMonth)
    ensures row.bloqueado == Some(false) && row.email_confirmado == Some(false)
    ensures row.data_inicio_plano.None? && row.data_fim_plano.None?
  {
    Row(id, nome, Lower(email), pass, Some(false), Some(FREE), None, None, Some(now),
        Some(false), Some(0), Some(currentMonth))
  }

  /** `signup`, given what the duplicate-e-mail query and the insert
      returned: an e-mail already present fails before anything is inserted;
      otherwise the new row is inserted unless the store refuses it. */
  function Signup(configured: bool, existing: Lookup, insert: Insert,
                  nome: string, email: string, pass: string,
                  currentMonth: string, now: Instant): (r: SignupResult)
    ensures r.reply.success <==> r.inserted.Some?
    ensures r.reply.success ==> r.reply.message == MSG_SIGNUP_OK
    ensures r.inserted.Some? <==> configured && !existing.Found? && insert.Inserted?
    ensures configured && existing.Found? ==> r.reply == SignupReply(false, MSG_EMAIL_TAKEN)
    ensures !configured ==> r.reply == SignupReply(false, MSG_NOT_INITIALIZED)
    ensures r.inserted.Some? ==> r.inserted.value == NewUserRow(insert.id, nome, email, pass, currentMonth, now)
    ensures configured && !existing.Found? && insert.InsertFailed? ==>
      r.reply == SignupReply(false, MSG_PERSIST_PREFIX + insert.message)
  {
    if !configured then SignupResult(SignupReply(false, MSG_NOT_INITIALIZED), None)
    else if existing.Found? then SignupResult(SignupReply(false, MSG_EMAIL_TAKEN), None)
    else match insert
      case InsertFailed(message) => SignupResult(SignupReply(false, MSG_PERSIST_PREFIX + message), None)
      case Inserted(id) =>
        SignupResult(SignupReply(true, MSG_SIGNUP_OK), Some(NewUserRow(id, nome, email, pass, currentMonth, now)))
  }

  /** The store after a sign-up: the inserted row, if any, is added under its
      id. The store assigns the id of an inserted row, so it is never the id
      of a row already present; an insert never replaces a row. */
  function SignupStore(store: Store, r: SignupResult): (s': Store)
    requires r.inserted.Some? ==> r.inserted.value.id !in store
    ensures r.inserted.None? ==> s' == store
    ensures r.inserted.Some? ==> s'.Keys == store.Keys + {r.inserted.value.id}
    ensures r.inserted.Some? ==> s'[r.inserted.value.id] == r.inserted.value
    ensures forall k :: k in store ==> k in s' && s'[k] == store[k]
  {
    match r.inserted
    case None => store
    case Some(row) => store[row.id := row]
  }

  // ---------------------------------------------------------------------
  // Single-field updates

  /** `incrementScanCount` on the row it read: one more upload. */
  function IncrementScanCount(row: Row): (r: Row)
    ensures r.uploads_usados == Some(StoredUploads(row) + 1)
    ensures r.(uploads_usados := row.uploads_usados) == row
  {
    row.(uploads_usados := Some(StoredUploads(row) + 1))
  }

  /** `togglePro` on the row it read: a `pro` row becomes `free` with both
      plan dates cleared; any other row becomes `pro`, starting now and ending
      at `in30Days` (the instant thirty calendar days ahead). */
  function TogglePro(row: Row, now: Instant, in30Days: Instant): (r: Row)
    ensures row.plano == Some(PRO) ==>
      r.plano == Some(FREE) && r.data_inicio_plano.None? && r.data_fim_plano.None?
    ensures row.plano != Some(PRO) ==>
      r.plano == Some(PRO) && r.data_inicio_plano == Some(now) && r.data_fim_plano == Some(in30Days)
    ensures r.(plano := row.plano, data_inicio_plano := row.data_inicio_plano, data_fim_plano := row.data_fim_plano) == row
  {
    var isCurrentlyPro := row.plano == Some(PRO);
    row.(plano := Some(if isCurrentlyPro then FREE else PRO),
         data_fim_plano := if isCurrentlyPro then None else Some(in30Days),
         data_inicio_plano := if isCurrentlyPro then None else Some(now))
  }

  /** `toggleBlock` on the row it read: the stored flag negated (a null flag
      counts as false). */
  function ToggleBlock(row: Row): (r: Row)
    ensures IsBlocked(r) <==> !IsBlocked(row)
    ensures r.bloqueado.Some?
    ensures r.(bloqueado := row.bloqueado) == row
  {
    row.(bloqueado := Some(!row.bloqueado.GetOr(false)))
  }

  /** A write the application issues against one row. */
  datatype Command =
    | IncrementScan(userId: string)
    | TogglePlan(userId: string, now: Instant, in30Days: Instant)
    | ToggleBlocked(userId: string)

  function TargetOf(cmd: Command): string {
    match cmd
    case IncrementScan(id) => id
    case TogglePlan(id, _, _) => id
    case ToggleBlocked(id) => id
  }

  /** The new value of the row a command targets. */
  function UpdatedRow(cmd: Command, row: Row): Row {
    match cmd
    case IncrementScan(_) => IncrementScanCount(row)
    case TogglePlan(_, now, in30Days) => TogglePro(row, now, in30Days)
    case ToggleBlocked(_) => ToggleBlock(row)
  }

  /** Runs a command against the store: when the store is not configured or
      the target row is missing nothing happens; otherwise only the target
      row changes. */
  function Apply(configured: bool, store: Store, cmd: Command): (s': Store)
    ensures s'.Keys == store.Keys
    ensures forall id :: id in store && id != TargetOf(cmd) ==> s'[id] == store[id]
    ensures configured && TargetOf(cmd) in store ==> s'[TargetOf(cmd)] == UpdatedRow(cmd, store[TargetOf(cmd)])
    ensures !configured || TargetOf(cmd) !in store ==> s' == store
  {
    var id := TargetOf(cmd);
    if configured && id in store then store[id := UpdatedRow(cmd, store[id])] else store
  }

  /** Runs a sequence of commands in order. */
  function ApplyAll(configured: bool, store: Store, cmds: seq<Command>): (s': Store)
    ensures s'.Keys == store.Keys
    decreases |cmds|
  {
    if cmds == [] then store else ApplyAll(configured, Apply(configured, store, cmds[0]), cmds[1..])
  }
}

=== FILE: decimal.dfy ===
/** Decimal rendering of integers, as JavaScript's `String(n)` does for a
    whole number, together with the parser that undoes it. */
module Decimal {
  import opened Types
  import opened Strings

  function DigitChar(d: nat): (c: char)
    requires d < 10
    ensures IsDigit(c)
  {
    ('0' as int + d) as char
  }

  function DigitValue(c: char): (d: nat)
    requires IsDigit(c)
    ensures d < 10 && DigitChar(d) == c
  {
    c as int - '0' as int
  }

  /** `String(n)` for a natural number: its decimal digits, most significant
      first, without leading zeros. */
  function NatToString(n: nat): (r: string)
    ensures |r| >= 1 && AllDigits(r)
    ensures |r| > 1 ==> r[0] != '0'
    ensures n < 10 <==> |r| == 1
    decreases n
  {
    if n < 10 then [DigitChar(n)]
    else NatToString(n / 10) + [DigitChar(n % 10)]
  }

  /** The value of a string of decimal digits. */
  function ParseNat(s: string): nat
    requires AllDigits(s)
    decreases |s|
  {
    if s == [] then 0
    else ParseNat(s[..|s| - 1]) * 10 + DigitValue(s[|s| - 1])
  }

  /** Reading back a rendered natural number gives the number. */
  lemma {:induction false} ParseNatToString(n: nat)
    ensures ParseNat(NatToString(n)) == n
    decreases n
  {
    var r := NatToString(n);
    if n < 10 {
      assert r[..0] == [];
    } else {
      var p := NatToString(n / 10);
      assert r == p + [DigitChar(n % 10)];
      assert r[..|r| - 1] == p;
      ParseNatToString(n / 10);
    }
  }

  /** `String(i)` for an integer: a minus sign before the digits of a
      negative number. */
  function IntToString(i: int): (r: string)
    ensures |r| >= 1
    ensures i >= 0 ==> r == NatToString(i)
    ensures i < 0 ==> r == "-" + NatToString(-i)
  {
    if i < 0 then "-" + NatToString(-i) else NatToString(i)
  }

  /** The integer an optionally signed digit string denotes; `None` for any
      other string. */
  function ParseInt(s: string): (r: Option<int>)
    ensures r.Some? ==> |s| >= 1
  {
    if |s| >= 2 && s[0] == '-' && AllDigits(s[1..]) then
      var magnitude: int := ParseNat(s[1..]);
      Some(-magnitude)
    else if |s| >= 1 && AllDigits(s) then Some(ParseNat(s))
    else None
  }

  /** `ParseInt` undoes `IntToString`, so `IntToString` is injective. */
  lemma {:induction false} IntToStringRoundTrip(i: int)
    ensures ParseInt(IntToString(i)) == Some(i)
  {
    var r := IntToString(i);
    if i < 0 {
      var d := NatToString(-i);
      assert r == "-" + d;
      assert r[0] == '-' && r[1..] == d;
      ParseNatToString(-i);
      assert ParseInt(r) == Some(0 - (ParseNat(d) as int));
    } else {
      assert r == NatToString(i);
      assert IsDigit(r[0]);
      ParseNatToString(i);
      assert ParseInt(r) == Some(ParseNat(r) as int);
    }
  }
}

=== FILE: gemini_service.dfy ===
/** Post-processing of the stop extraction (services/geminiService.ts,
    `extractAddressesFromImage`): validating and splitting the image data URL,
    and turning the service's raw stops into `DeliveryStop`s.

    The vision service call and the JSON parse are not modelled: what they
    produced is the `ApiReply` input. Stop ids come from the clock and a
    random source, so they are the `mkId` input. */
module GeminiService {
  import opened Types
  import opened Strings

  const MSG_INVALID_IMAGE: string := "O formato da imagem é inválido ou está corrompido."
  const MSG_EXTRACTION_FAILED: string :=
    "Falha ao processar a imagem. Verifique sua conexão ou tente um print mais nítido."

  const DATA_PREFIX: string := "data:"
  const BASE64_MARKER: string := ";base64,"

  /** The two parts `/^data:([^;]+);base64,(.+)$/` captures. */
  datatype DataUrl = DataUrl(mimeType: string, data: string)

  /** The characters `.` does not match in a JavaScript regular expression. */
  predicate IsLineTerminator(c: char) {
    var n := c as int;
    n == 0x0A || n == 0x0D || n == 0x2028 || n == 0x2029
  }

  /** The strings the data-URL pattern accepts, spelled out: `data:`, a
      non-empty MIME type without `;`, the `;base64,` marker, and a non-empty
      payload that `.` matches throughout. */
  ghost predicate IsDataUrlOf(s: string, d: DataUrl) {
    && d.mimeType != [] && (forall i :: 0 <= i < |d.mimeType| ==> d.mimeType[i] != ';')
    && d.data != [] && (forall i :: 0 <= i < |d.data| ==> !IsLineTerminator(d.data[i]))
    && s == DATA_PREFIX + d.mimeType + BASE64_MARKER + d.data
  }

  /** The first position at or after `from` holding `c`, or `|s|`. */
  function IndexOf(s: string, c: char, from: nat): (i: nat)
    requires from <= |s|
    ensures from <= i <= |s|
    ensures i < |s| ==> s[i] == c
    ensures forall k :: from <= k < i ==> s[k] != c
    decreases |s| - from
  {
    if from == |s| || s[from] == c then from else IndexOf(s, c, from + 1)
  }

  /** Matches `s` against the data-URL pattern and returns the two captured
      parts; `None` when it does not match. The MIME type runs up to the
      first `;`, which must open the `;base64,` marker. */
  function ParseDataUrl(s: string): (r: Option<DataUrl>)
    ensures r.Some? ==> IsDataUrlOf(s, r.value)
  {
    if !StartsWith(s, DATA_PREFIX) then None
    else
      var semi := IndexOf(s, ';', |DATA_PREFIX|);
      if semi == |DATA_PREFIX| || !StartsWith(s[semi..], BASE64_MARKER) then None
      else
        var payload := s[semi + |BASE64_MARKER|..];
        if payload == [] || exists i :: 0 <= i < |payload| && IsLineTerminator(payload[i]) then None
        else
          var d := DataUrl(s[|DATA_PREFIX|..semi], payload);
          assert s == DATA_PREFIX + d.mimeType + BASE64_MARKER + d.data by {
            assert s == s[..|DATA_PREFIX|] + s[|DATA_PREFIX|..semi] + s[semi..semi + |BASE64_MARKER|] + payload;
          }
          Some(d)
  }

  /** Every string of the data-URL shape is accepted, with exactly its MIME
      type and payload captured; with `ParseDataUrl`'s contract this makes
      acceptance an if-and-only-if. */
  lemma {:induction false} ParseDataUrlComplete(s: string, d: DataUrl)
    requires IsDataUrlOf(s, d)
    ensures ParseDataUrl(s) == Some(d)
  {
    var p := |DATA_PREFIX|;
    var semi := p + |d.mimeType|;
    assert s[..p] == DATA_PREFIX;
    assert s[p..semi] == d.mimeType;
    assert s[semi..] == BASE64_MARKER + d.data;
    assert s[semi..][..|BASE64_MARKER|] == BASE64_MARKER;
    assert s[semi] == ';';
    assert IndexOf(s, ';', p) == semi by {
      forall k | p <= k < semi ensures s[k] != ';' {
        assert s[k] == d.mimeType[k - p];
      }
      IndexOfFirst(s, ';', p, semi);
    }
    assert s[semi + |BASE64_MARKER|..] == d.data;
  }

  /** `IndexOf` stops at the first occurrence. */
  lemma {:induction false} IndexOfFirst(s: string, c: char, from: nat, at: nat)
    requires from <= at < |s| && s[at] == c
    requires forall k :: from <= k < at ==> s[k] != c
    ensures IndexOf(s, c, from) == at
    decreases at - from
  {
    if from < at {
      IndexOfFirst(s, c, from + 1, at);
    }
  }

  /** A string with no data-URL reading is refused. */
  lemma ParseDataUrlSound(s: string)
    requires forall d :: !IsDataUrlOf(s, d)
    ensures ParseDataUrl(s).None?
  {
  }

  // ---------------------------------------------------------------------
  // Postal codes

  /** The CEP rewrite: keep the digits, then, if there are at least eight,
      put one `-` after the fifth (the first match of `(\d{5})(\d{3})` in a
      digit string starts at its beginning). */
  function NormalizeCep(cep: string): (r: string)
    ensures Digits(r) == Digits(cep)
    ensures |Digits(cep)| >= 8 ==> |r| == |Digits(cep)| + 1 && r[5] == '-' && r[..5] + r[6..] == Digits(cep)
    ensures |Digits(cep)| < 8 ==> r == Digits(cep)
  {
    var d := Digits(cep);
    if |d| >= 8 then
      var r := d[..5] + "-" + d[5..];
      assert Digits(r) == d by {
        DigitsAppend(d[..5] + "-", d[5..]);
        DigitsAppend(d[..5], "-");
        DigitsOfDigits(d[..5]);
        DigitsOfDigits(d[5..]);
        assert d[..5] + d[5..] == d;
      }
      assert r[..5] + r[6..] == d by {
        assert r[..5] == d[..5];
        assert r[6..] == d[5..];
      }
      r
    else
      DigitsOfDigits(d);
      d
  }

  /** Normalising a normalised CEP changes nothing. */
  lemma NormalizeCepIdempotent(cep: string)
    ensures NormalizeCep(NormalizeCep(cep)) == NormalizeCep(cep)
  {
  }

  /** A CEP with exactly eight digits comes out as `NNNNN-NNN`. */
  lemma NormalizeCepShape(cep: string)
    requires |Digits(cep)| == 8
    ensures var r := NormalizeCep(cep);
      |r| == 9 && r[5] == '-'
      && (forall i :: 0 <= i < 9 && i != 5 ==> IsDigit(r[i]))
  {
    var r := NormalizeCep(cep);
    var d := Digits(cep);
    forall i | 0 <= i < 9 && i != 5 ensures IsDigit(r[i]) {
      if i < 5 {
        assert r[i] == (r[..5] + r[6..])[i];
      } else {
        assert r[i] == (r[..5] + r[6..])[i - 1];
      }
    }
  }

  /** The first worked example: bare digits gain the hyphen. */
  lemma NormalizeCepBareDigits()
    ensures NormalizeCep("12345678") == "12345-678"
  {
    var d := "12345678";
    assert AllDigits(d);
    DigitsOfDigits(d);
    assert d[..5] == "12345" && d[5..] == "678";
  }

  /** The second worked example: a formatted CEP is left as it is. */
  lemma NormalizeCepFormatted()
    ensures NormalizeCep("12345-678") == "12345-678"
  {
    NormalizeCepBareDigits();
    NormalizeCepIdempotent("12345678");
  }

  // ---------------------------------------------------------------------
  // Stops

  /** One element of the parsed `stops` array. `stopNumber` and `cep` go
      through `String(...)`, so they are their string renderings; `address`
      and `city` have `.trim()` called on them, which throws unless they are
      strings (`None`). */
  datatype RawStop = RawStop(stopNumber: string, address: Option<string>, cep: string, city: Option<string>)

  predicate Processable(raw: RawStop) {
    raw.address.Some? && raw.city.Some?
  }

  /** The `stops` field of the parsed response. */
  datatype StopsField = Absent | NotAnArray | Items(items: seq<RawStop>)

  /** What the vision call and the JSON parse produced. */
  datatype ApiReply = CallFailed | Parsed(stops: StopsField)

  /** The mapping applied to one raw stop. */
  function ProcessStop(raw: RawStop, id: string): (s: DeliveryStop)
    requires Processable(raw)
    ensures s.id == id && s.confidence == 1.0
    ensures s.stopNumber == Trim(raw.stopNumber)
    ensures s.address == Trim(raw.address.value) && s.city == Trim(raw.city.value)
    ensures s.cep == NormalizeCep(raw.cep)
  {
    DeliveryStop(id, Trim(raw.stopNumber), Trim(raw.address.value), NormalizeCep(raw.cep),
                 Trim(raw.city.value), 1.0)
  }

  /** The `processedStops` mapping: `None` when some stop cannot be processed
      (the thrown error aborts the whole map); otherwise one processed stop
      per raw stop, in the same order, the `i`-th with id `mkId(i)`. */
  function ProcessStops(items: seq<RawStop>, mkId: nat -> string): (r: Option<seq<DeliveryStop>>)
    ensures r.Some? <==> forall raw :: raw in items ==> Processable(raw)
    ensures r.Some? ==> |r.value| == |items|
    ensures r.Some? ==> forall i :: 0 <= i < |items| ==> r.value[i] == ProcessStop(items[i], mkId(i))
  {
    if forall raw :: raw in items ==> Processable(raw) then
      Some(seq(|items|, i requires 0 <= i < |items| => ProcessStop(items[i], mkId(i))))
    else None
  }

  /** `extractAddressesFromImage`. A malformed data URL is refused before the
      service is called; any failure of the call, the parse or the mapping is
      the one generic error; a missing or non-array `stops` is no stops. */
  function ExtractAddresses(dataUrl: string, reply: ApiReply, mkId: nat -> string): (r: Result<seq<DeliveryStop>>)
    ensures ParseDataUrl(dataUrl).None? ==> r == Err(MSG_INVALID_IMAGE)
    ensures r.Err? ==> r.message == MSG_INVALID_IMAGE || r.message == MSG_EXTRACTION_FAILED
    ensures r.Ok? ==> ParseDataUrl(dataUrl).Some? && reply.Parsed?
    ensures ParseDataUrl(dataUrl).Some? && reply.CallFailed? ==> r == Err(MSG_EXTRACTION_FAILED)
    ensures ParseDataUrl(dataUrl).Some? && reply.Parsed? && !reply.stops.Items? ==> r == Ok([])
    ensures ParseDataUrl(dataUrl).Some? && reply.Parsed? && reply.stops.Items? ==>
      (r.Ok? <==> forall raw :: raw in reply.stops.items ==> Processable(raw))
    ensures r.Ok? && reply.stops.Items? ==> (|r.value| == |reply.stops.items|
      && forall i :: 0 <= i < |r.value| ==> r.value[i] == ProcessStop(reply.stops.items[i], mkId(i)))
  {
    if ParseDataUrl(dataUrl).None? then Err(MSG_INVALID_IMAGE)
    else match reply
      case CallFailed => Err(MSG_EXTRACTION_FAILED)
      case Parsed(Items(items)) =>
        (match ProcessStops(items, mkId)
         case None => Err(MSG_EXTRACTION_FAILED)
         case Some(stops) => Ok(stops))
      case Parsed(_) => Ok([])
  }

  /** A processed stop is already in its final form: processing its fields
      again changes none of them. */
  lemma ProcessedStopIsNormal(raw: RawStop, id: string)
    requires Processable(raw)
    ensures var s := ProcessStop(raw, id);
      Trim(s.stopNumber) == s.stopNumber && Trim(s.address) == s.address
      && Trim(s.city) == s.city && NormalizeCep(s.cep) == s.cep
  {
    TrimIdempotent(raw.stopNumber);
    TrimIdempotent(raw.address.value);
    TrimIdempotent(raw.city.value);
    NormalizeCepIdempotent(raw.cep);
  }

  /** Every extracted stop is already in its final form. */
  lemma ExtractedStopsAreNormal(dataUrl: string, reply: ApiReply, mkId: nat -> string, i: nat)
    requires ExtractAddresses(dataUrl, reply, mkId).Ok?
    requires i < |ExtractAddresses(dataUrl, reply, mkId).value|
    ensures var s := ExtractAddresses(dataUrl, reply, mkId).value[i];
      Trim(s.stopNumber) == s.stopNumber && Trim(s.address) == s.address
      && Trim(s.city) == s.city && NormalizeCep(s.cep) == s.cep
  {
    var items := reply.stops.items;
    assert items[i] in items;
    ProcessedStopIsNormal(items[i], mkId(i));
  }
}

=== FILE: month_key.dfy ===
/** The `YYYY-MM` month key that the monthly scan quota is accounted against
    (services/authService.ts, `getCurrentMonthKey`). The clock is not read
    here: the year and the zero-based month index that `Date` reports are
    parameters. */
module MonthKey {
  import opened Types
  import opened Strings
  import opened Decimal

  /** What `Date.prototype.getMonth` returns. */
  type MonthIndex = m: int | 0 <= m < 12

  /** The two-digit month numerals, January first: the independent reference
      the key's month part is checked against. */
  const MonthNumerals: seq<string> :=
    ["01", "02", "03", "04", "05", "06", "07", "08", "09", "10", "11", "12"]

  /** `String.prototype.padStart(width, fill)` with a one-character fill. */
  function PadStart(s: string, width: nat, fill: char): (r: string)
    ensures |r| == if |s| >= width then |s| else width
    ensures |s| <= |r| && r[|r| - |s|..] == s
    ensures forall i :: 0 <= i < |r| - |s| ==> r[i] == fill
  {
    if |s| >= width then s else seq(width - |s|, _ => fill) + s
  }

  /** `String(month + 1).padStart(2, '0')`. */
  function MonthPart(month: MonthIndex): (r: string)
    ensures r == MonthNumerals[month]
  {
    var n := NatToString(month + 1);
    if month + 1 < 10 then
      assert n == [DigitChar(month + 1)];
      PadStart(n, 2, '0')
    else
      assert n == NatToString(1) + [DigitChar(month + 1 - 10)];
      PadStart(n, 2, '0')
  }

  /** The key of a month: the year as `String` renders it, a `-`, and the
      one-based month zero-padded to two digits. */
  function CurrentMonthKey(year: int, month: MonthIndex): (key: string)
    ensures key == IntToString(year) + "-" + MonthNumerals[month]
    ensures |key| >= 4 && key[|key| - 3] == '-'
    ensures key[|key| - 2..] in MonthNumerals
  {
    var y := IntToString(year);
    var mp := MonthPart(month);
    KeyShape(y, mp);
    y + "-" + mp
  }

  /** Where the separator and the month part sit in a key. */
  lemma KeyShape(y: string, mp: string)
    requires |y| >= 1 && |mp| == 2
    ensures var k := y + "-" + mp;
      |k| >= 4 && k[|k| - 3] == '-' && k[|k| - 2..] == mp
  {
  }

  /** The month a two-digit numeral names, if it names one. */
  function NumeralMonth(numeral: string): (r: Option<MonthIndex>)
  {
    if |numeral| == 2 && AllDigits(numeral) && 1 <= ParseNat(numeral) <= 12
    then Some(ParseNat(numeral) - 1)
    else None
  }

  /** Each numeral of the table names its own month. */
  lemma NumeralNamesMonth(month: MonthIndex)
    ensures NumeralMonth(MonthNumerals[month]) == Some(month)
  {
    var s := MonthNumerals[month];
    assert s[..1][..0] == [];
    assert ParseNat(s) == ParseNat(s[..1]) * 10 + DigitValue(s[1]);
    assert ParseNat(s[..1]) == DigitValue(s[0]);
  }

  /** Reads a key back into the year and month it was made from. */
  function ParseMonthKey(key: string): (r: Option<(int, MonthIndex)>)
  {
    if |key| < 4 || key[|key| - 3] != '-' then None
    else match (ParseInt(key[..|key| - 3]), NumeralMonth(key[|key| - 2..])) {
      case (Some(y), Some(m)) => Some((y, m))
      case _ => None
    }
  }

  /** A key reads back as whatever its year text and its numeral read as. */
  lemma ParseKeyParts(prefix: string, numeral: string, year: int, month: MonthIndex)
    requires |numeral| == 2
    requires ParseInt(prefix) == Some(year) && NumeralMonth(numeral) == Some(month)
    ensures ParseMonthKey(prefix + "-" + numeral) == Some((year, month))
  {
    var key := prefix + "-" + numeral;
    assert key[..|key| - 3] == prefix && key[|key| - 3] == '-' && key[|key| - 2..] == numeral;
  }

  /** Reading a key back gives the year and month it was made from. */
  lemma {:induction false} MonthKeyRoundTrip(year: int, month: MonthIndex)
    ensures ParseMonthKey(CurrentMonthKey(year, month)) == Some((year, month))
  {
    IntToStringRoundTrip(year);
    NumeralNamesMonth(month);
    ParseKeyParts(IntToString(year), MonthNumerals[month], year, month);
  }

  /** Two months share a key only if they are the same month: the key is a
      faithful name for the quota period. */
  lemma MonthKeyInjective(y1: int, m1: MonthIndex, y2: int, m2: MonthIndex)
    requires CurrentMonthKey(y1, m1) == CurrentMonthKey(y2, m2)
    ensures y1 == y2 && m1 == m2
  {
    MonthKeyRoundTrip(y1, m1);
    MonthKeyRoundTrip(y2, m2);
  }
}

=== FILE: strings.dfy ===
/** The JavaScript string operations the application relies on:
    `startsWith`, `toLowerCase`, `trim`, and removal of non-digits
    (`replace(/\D/g, '')`). */
module Strings {

  /** `\d` in a JavaScript regular expression: an ASCII decimal digit. */
  predicate IsDigit(c: char) {
    '0' <= c <= '9'
  }

  predicate AllDigits(s: string) {
    forall i :: 0 <= i < |s| ==> IsDigit(s[i])
  }

  predicate StartsWith(s: string, prefix: string) {
    |prefix| <= |s| && s[..|prefix|] == prefix
  }

  /** The digits of `s`, in order: what `s.replace(/\D/g, '')` leaves. */
  function Digits(s: string): (r: string)
    ensures AllDigits(r)
    ensures |r| <= |s|
  {
    if s == [] then []
    else if IsDigit(s[0]) then [s[0]] + Digits(s[1..])
    else Digits(s[1..])
  }

  /** `Digits` keeps every digit of its input as often as it occurs there, and
      no other character. */
  lemma {:induction false} DigitsCounts(s: string)
    ensures forall c :: IsDigit(c) ==> multiset(Digits(s))[c] == multiset(s)[c]
    ensures forall c :: !IsDigit(c) ==> multiset(Digits(s))[c] == 0
    decreases |s|
  {
    if s != [] {
      DigitsCounts(s[1..]);
      assert s == [s[0]] + s[1..];
      assert multiset(s) == multiset([s[0]]) + multiset(s[1..]);
      if IsDigit(s[0]) {
        assert multiset(Digits(s)) == multiset([s[0]]) + multiset(Digits(s[1..]));
      }
    }
  }

  /** Removing non-digits distributes over concatenation. */
  lemma {:induction false} DigitsAppend(a: string, b: string)
    ensures Digits(a + b) == Digits(a) + Digits(b)
    decreases |a|
  {
    if a == [] {
      assert a + b == b;
    } else {
      assert (a + b)[0] == a[0];
      assert (a + b)[1..] == a[1..] + b;
      DigitsAppend(a[1..], b);
    }
  }

  /** A string made of digits only is left as it is. */
  lemma {:induction false} DigitsOfDigits(s: string)
    requires AllDigits(s)
    ensures Digits(s) == s
    decreases |s|
  {
    if s != [] {
      assert AllDigits(s[1..]);
      DigitsOfDigits(s[1..]);
      assert s == [s[0]] + s[1..];
    }
  }

  /** `toLowerCase` on one character; only ASCII letters are folded. */
  function LowerChar(c: char): char {
    if 'A' <= c <= 'Z' then (c as int + 32) as char else c
  }

  /** `toLowerCase`, restricted to ASCII letters. */
  function Lower(s: string): (r: string)
    ensures |r| == |s|
    ensures forall i :: 0 <= i < |s| ==> r[i] == LowerChar(s[i])
  {
    seq(|s|, i requires 0 <= i < |s| => LowerChar(s[i]))
  }

  /** Lower-casing twice is lower-casing once, and a lower-cased string has no
      upper-case ASCII letter left. */
  lemma LowerIdempotent(s: string)
    ensures Lower(Lower(s)) == Lower(s)
    ensures forall i :: 0 <= i < |s| ==> !('A' <= Lower(s)[i] <= 'Z')
  {
  }

  /** The characters `String.prototype.trim` removes: ECMAScript WhiteSpace
      and LineTerminator code points. */
  predicate IsJsSpace(c: char) {
    var n := c as int;
    n == 0x09 || n == 0x0A || n == 0x0B || n == 0x0C || n == 0x0D || n == 0x20
    || n == 0xA0 || n == 0x1680 || (0x2000 <= n <= 0x200A)
    || n == 0x2028 || n == 0x2029 || n == 0x202F || n == 0x205F
    || n == 0x3000 || n == 0xFEFF
  }

  /** Drops the leading white space of `s`. */
  function TrimStart(s: string): (r: string)
    ensures |r| <= |s| && r == s[|s| - |r|..]
    ensures forall i :: 0 <= i < |s| - |r| ==> IsJsSpace(s[i])
    ensures r == [] || !IsJsSpace(r[0])
  {
    if s != [] && IsJsSpace(s[0]) then TrimStart(s[1..]) else s
  }

  /** Drops the trailing white space of `s`. */
  function TrimEnd(s: string): (r: string)
    ensures |r| <= |s| && r == s[..|r|]
    ensures forall i :: |r| <= i < |s| ==> IsJsSpace(s[i])
    ensures r == [] || !IsJsSpace(r[|r| - 1])
  {
    if s != [] && IsJsSpace(s[|s| - 1]) then TrimEnd(s[..|s| - 1]) else s
  }

  /** How many white-space characters `trim` drops at the front of `s`. */
  function LeadingSpace(s: string): (n: nat)
    ensures n <= |s|
  {
    |s| - |TrimStart(s)|
  }

  /** `String.prototype.trim`: `s` without the white space at either end.
      What is kept is one contiguous slice of `s`, and everything dropped
      before and after it is white space. */
  function Trim(s: string): (r: string)
    ensures r == [] || (!IsJsSpace(r[0]) && !IsJsSpace(r[|r| - 1]))
    ensures LeadingSpace(s) + |r| <= |s|
    ensures r == s[LeadingSpace(s)..LeadingSpace(s) + |r|]
    ensures forall i :: 0 <= i < LeadingSpace(s) ==> IsJsSpace(s[i])
    ensures forall i :: LeadingSpace(s) + |r| <= i < |s| ==> IsJsSpace(s[i])
  {
    var t := TrimStart(s);
    var r := TrimEnd(t);
    assert r == s[|s| - |t|..|s| - |t| + |r|];
    r
  }

  /** Trimming is idempotent, and a string without white space at either end
      is its own trim. */
  lemma {:induction false} TrimIdempotent(s: string)
    ensures Trim(Trim(s)) == Trim(s)
  {
    TrimOfTrimmed(Trim(s));
  }

  lemma TrimOfTrimmed(s: string)
    requires s == [] || (!IsJsSpace(s[0]) && !IsJsSpace(s[|s| - 1]))
    ensures Trim(s) == s
  {
  }
}

=== FILE: types.dfy ===
/** The shared declarations of the application (types.ts), as Dafny values.

    Field names keep the application's own (Portuguese) names so that the
    model can be read side by side with the rows it describes. */
module Types {

  /** A nullable value: `None` stands for JavaScript's `null`/`undefined`. */
  datatype Option<+T> = None | Some(value: T) {

    /** The value, or `default` when absent. */
    function GetOr(default: T): T {
      match this
      case Some(v) => v
      case None => default
    }
  }

  /** The outcome of an operation that may throw: `Err` carries the
      `message` of the thrown `Error`. */
  datatype Result<+T> = Ok(value: T) | Err(message: string)

  /** A wall-clock instant in milliseconds since the epoch; treated as opaque. */
  type Instant = int

  /** The two plan names of `UserPlan`. */
  const FREE: string := "free"
  const PRO: string := "pro"

  /** `User`. The plan is kept as the string the store returned: the cast
      that builds a `User` from a row does not check it against `UserPlan`. */
  datatype User = User(
    id: string,
    nome: string,
    email: string,
    senha_hash: string,
    email_verificado: bool,
    plano: string,
    pro_expira_em: Option<Instant>,
    criado_em: Instant,
    bloqueado: bool,
    prints_neste_mes: int,
    ultimo_mes_uso: string)

  /** `Admin`: the single administrator identity; never stored. */
  datatype Admin = Admin(id: string, email: string, senha_hash: string)

  /** `ViewState`: the screen currently shown, named as the application names it. */
  datatype ViewState =
    | LOGIN
    | SIGNUP
    | FORGOT_PASSWORD
    | DASHBOARD
    | ADMIN_LOGIN
    | ADMIN_PANEL

  /** `DeliveryStop`: one extracted stop. */
  datatype DeliveryStop = DeliveryStop(
    id: string,
    stopNumber: string,
    address: string,
    cep: string,
    city: string,
    confidence: real)
}
